=== FILE: README.md ===
# SoundWeave audio engine, modelled in Dafny

This project models the playback core of the SoundWeave browser audio
workstation: the audio engine singleton (`services/audioEngine.ts`), the
data shapes it works on (`types.ts`) and the pure state updates of the host
application (`App.tsx`). The Web Audio graph is reduced to plain data. The
engine state is an immutable record. A scheduler pass returns the grid steps
it scheduled. A triggered note becomes a voice descriptor: waveform, pitch,
automation points, and start and stop times. Bars and seconds are `real`.

Files, one module each:

- `types.dfy` (`Types`): notes, clips, tracks and the project state. Their documented ranges are collected as well-formedness predicates. `NoteWellFormed` covers a non-negative start, a positive duration and velocity in 0..1. `ClipWellFormed` covers a positive length, with every note starting inside the clip. `TrackWellFormed` covers volume in 0..1 and pan in −1..1. `UniqueIds` says track ids are unique. `ProjectWellFormed` covers a positive tempo and a non-negative position. A clip whose `notes` are absent is a valid placeholder. An untagged track plays as a synth.
- `pitch.dfy` (`Pitch`): the note-name parser. It does an unanchored leftmost scan for a letter `A`–`G`, an optional `#` and one digit, looks the capture up in the sharps-only table, and computes the MIDI number. The frequency stays symbolic (`Tempered(midi)`). If nothing matches, it is the literal 440 Hz.
- `resolver.dfy` (`Resolver`): the note resolver that runs at each grid step.
- `voices.dfy` (`Voices`): drum and melodic voice descriptors, and dispatch by instrument.
- `engine.dfy` (`Engine`): the engine record, context bring-up, tempo, and the per-track bus map.
- `transport.dfy` (`Transport`): the look-ahead scheduler pass as a loop, plus play, stop and a timer firing.
- `app.dfy` (`App`): the initial tracks, the mixer update, clip generation and the tick's display position.

Behaviour of the code worth knowing, which the model follows:

- **Drum selection.** A drum note is a kick if its lower-cased name contains `c` anywhere, and a snare if it contains `d`. The pitch letter alone does not decide it.
- **Drum envelopes.** Drum voices start at their full level (1, 0.5 or 0.2), not at zero. Only melodic voices start silent.
- **Playback past bar 32.** The engine's cursor never loops. Once the reported bar passes 32, the displayed position stays at 0 while the engine keeps scheduling from bar 32 onwards. The next `play` starts from the displayed bar.
- **First playback is silent.** Buses are created only by the track-parameter update, which does nothing before the audio context exists (services/audioEngine.ts:42-43), and the context is first created inside `play` (services/audioEngine.ts:67). The track-sync effect runs only when the track list changes (App.tsx:29-33). So the first `play` after loading schedules its steps against an empty bus map and every track is skipped (services/audioEngine.ts:110) until some track is edited. `App.FirstPlayIsSilent` shows this for the first pass.
- **Resolver inputs.** The resolver reads the track list captured when playback started, but the live bus map. A mute made during playback therefore acts only through the bus gain.

## Model

| member | source | states |
|---|---|---|
| `Types.InstrumentOf` | services/audioEngine.ts:122 | a track plays its tagged instrument, and an untagged track plays as a synth |
| `Pitch.MatchAt` | services/audioEngine.ts:209-210 | the pattern at one position matches exactly when a letter A–G is followed by a digit, or by `#` and a digit; the greedy `#` takes the digit after it, and a letter followed by `#` with no digit has no match there |
| `Pitch.ScanFromIsLeftmost` | services/audioEngine.ts:209-211 | scanning from a position finds nothing iff no later position matches; otherwise it returns the match at the leftmost matching position |
| `Pitch.ScanIsLeftmost` | services/audioEngine.ts:210-211 | over a whole name: no match anywhere iff the scan fails, otherwise the first match wins |
| `Pitch.IndexOf` | services/audioEngine.ts:213 | `indexOf` returns the first position holding the value, or −1 exactly when the value is absent |
| `Pitch.Semitone` | services/audioEngine.ts:208-213 | the table index of the captured letter-and-sharp lies in −1..11, and is −1 exactly for `E#` and `B#` |
| `Pitch.SemitoneIsChromaticIndex` | services/audioEngine.ts:208-213 | looking the capture up in the table equals the chromatic index written per letter (C=0 … B=11, sharps +1, E#/B# −1) |
| `Pitch.MidiOf` | services/audioEngine.ts:213-217 | the MIDI number `(octave+1)*12 + index` lies between `(octave+1)*12 − 1` and `(octave+1)*12 + 11` |
| `Pitch.GetFreq` | services/audioEngine.ts:206-221 | no match gives 440 Hz; a match gives an equal-tempered pitch with MIDI number in 11..131 |
| `Pitch.ScanMatchIsLetter` | services/audioEngine.ts:209-214 | a successful scan captures a letter A–G and a single-digit octave 0..9 |
| `Pitch.ExactHz` | services/audioEngine.ts:219-220 | literal hertz are exact; MIDI 69 is exactly 440 Hz; a pitch not a whole number of octaves from A4 has no exact value here |
| `Pitch.UnmatchedNameIs440` | services/audioEngine.ts:210-211 | a name with no letter A–G, for instance any lower-case name, sounds at exactly 440 Hz |
| `Pitch.ConcertPitch` | services/audioEngine.ts:213-220 | "A4" is MIDI 69 and exactly 440 Hz, "C4" is MIDI 60, "A3" is exactly 220 Hz |
| `Pitch.SharpOfEIsMinusOne` | services/audioEngine.ts:208-217 | "E#4" and "B#3" match but take index −1, giving MIDI 59 and 47 |
| `Pitch.FirstMatchWins` | services/audioEngine.ts:209-211 | "xxG#2C5" parses as G#2 (MIDI 44), and lower-case "a4" falls back to 440 Hz |
| `Pitch.GetFreqOfMatch` | services/audioEngine.ts:210-217 | a matched name's pitch is `(octave+1)*12` plus the chromatic index of the capture |
| `Pitch.ScanFrom` | services/audioEngine.ts:210 | nothing is found past the end of the name, and a match at the starting position is taken at once (the full leftmost characterisation is `Pitch.ScanFromIsLeftmost`) |
| `Pitch.Scan` | services/audioEngine.ts:210 | a name shorter than two characters has no match, and a match at the first character wins |
| `Resolver.NoteEvents` | services/audioEngine.ts:118-124 | every event of a clip's notes is one of those notes whose start is within 0.01 bar of the relative cursor, and every such note yields its event |
| `Resolver.ClipEvents` | services/audioEngine.ts:114-125 | a clip outside its half-open window `[startBar, startBar+durationBars)`, or without notes, contributes nothing; an active clip with notes contributes exactly the events of its notes at the clip-relative cursor (`bar − startBar`), so note order and multiplicity carry through |
| `Resolver.ClipsEvents` | services/audioEngine.ts:112-127 | every event of a track's clips carries the track id and the track's instrument |
| `Resolver.TrackEvents` | services/audioEngine.ts:107-112 | a muted track or one without a bus contributes nothing; an audible track contributes exactly the events of its clips, in clip order; the events carry the track id and its instrument, `Synth` when the track has none |
| `Resolver.Resolve` | services/audioEngine.ts:105-129 | every resolved event belongs to an audible track of the list |
| `Resolver.ResolveAppend` | services/audioEngine.ts:107-128 | the output over two track lists is the concatenation of their outputs, so it follows track order |
| `Resolver.ClipsEventsAppend` | services/audioEngine.ts:112-127 | within a track the output is the concatenation over its clips, in clip order |
| `Resolver.NoteEventsAppend` | services/audioEngine.ts:119-124 | within a clip the output is the concatenation over its notes, in note order |
| `Resolver.InaudibleTrackIsSilent` | services/audioEngine.ts:108-110 | removing a muted track, or one without a bus, from any position leaves the output unchanged, whatever its notes |
| `Resolver.ClipsEventsMembership` | services/audioEngine.ts:112-127 | an event comes from a track's clips iff some active clip with notes holds its note and the note fires at that clip's relative cursor |
| `Resolver.TrackEventsMembership` | services/audioEngine.ts:107-127 | an event comes from a track iff one of its notes sounds (audible track, active clip, note fires) |
| `Resolver.ResolveHasTrack` | services/audioEngine.ts:107-128 | an event is resolved iff some track of the list emits it |
| `Resolver.ResolveMembership` | services/audioEngine.ts:105-129 | an event is resolved iff an audible track holds an active clip with a note firing at the cursor, with the track's id and instrument |
| `Resolver.NoBusesResolveNothing` | services/audioEngine.ts:108-110 | with an empty bus map no track passes the bus check, so nothing resolves at any bar |
| `Resolver.NotelessTracksAreSilent` | services/audioEngine.ts:118-125 | tracks whose clips all lack notes resolve to nothing at any bar |
| `Resolver.NoteFiresNearItsBar` | services/audioEngine.ts:114-121 | a note of an active clip fires at a bar iff that bar is within 0.01 of the clip start plus the note start |
| `Resolver.FiresAtMostOnceOnGrid` | services/audioEngine.ts:116-121 | on the 1/16-bar grid a note fires at no more than one cursor, since distinct grid points are 0.0625 apart |
| `Resolver.KickScenario` | services/audioEngine.ts:107-124 | a kick at the start of a clip at bar 0 fires at bar 0 and not at bar 0.0625; the same track muted fires at no bar |
| `Voices.SecondsPerBar` | services/audioEngine.ts:160 | a bar at a positive tempo lasts `240 / bpm` seconds, which is positive |
| `Voices.SecondsPerBarDecreasing` | services/audioEngine.ts:160 | a faster tempo gives a strictly shorter bar |
| `Voices.ToLower` | services/audioEngine.ts:179 | lower-casing keeps the length and lowers each character |
| `Voices.DrumKindOf` | services/audioEngine.ts:179-195 | kick iff the name contains `c` or `C`; snare iff it contains neither but contains `d` or `D`; hi-hat otherwise |
| `Voices.DrumVoice` | services/audioEngine.ts:171-204 | a drum voice starts at the given time; its two-point envelope sets its level immediately at the start and decays exponentially to 0.001 exactly at the oscillator stop |
| `Voices.DrumVoiceShapes` | services/audioEngine.ts:179-203 | kick: sine, 150 Hz sweeping exponentially to 0.01 Hz at +0.5 s, level set to 1 at the start, stop +0.5 s; snare: triangle, 300 Hz, level set to 0.5, stop +0.2 s; hi-hat: square, 1200 Hz, level set to 0.2, stop +0.05 s |
| `Voices.DrumIgnoresVelocityAndDuration` | services/audioEngine.ts:171-204 | two drum notes with the same name give the same voice, whatever their velocity and duration |
| `Voices.NoteSeconds` | services/audioEngine.ts:160 | a note's decay time is its duration in bars converted at `240 / bpm` seconds per bar, positive for a positive duration |
| `Voices.SynthVoice` | services/audioEngine.ts:142-169 | a melodic voice has the parsed pitch; the bass is a sawtooth one octave down and every other instrument a triangle at pitch; the envelope is silent at the start, rises linearly to half the velocity 20 ms later, decays exponentially to 0.001 at the end of the note, and the oscillator stops 0.1 s after that |
| `Voices.SynthEnvelopeOrdered` | services/audioEngine.ts:160-165 | the envelope's points are in time order iff the note lasts at least the 20 ms attack |
| `Voices.SynthOneBarNote` | services/audioEngine.ts:160-165 | a one-bar note decays over exactly one bar of seconds and peaks at half its velocity |
| `Voices.Trigger` | services/audioEngine.ts:132-140 | a drums track plays the drum voice of the note and any other instrument the melodic voice of that instrument; the voice plays into the track's bus from the stamped time; for a note of non-negative length, every automation point lies within the voice's lifetime |
| `Voices.BassA4Is220` | services/audioEngine.ts:150-155 | an "A4" on the bass is MIDI 69 lowered one octave, where MIDI 69 is exactly 440 Hz |
| `Engine.Initial` | services/audioEngine.ts:3-18 | the fresh engine has no context, is not playing, has no pending timer and no buses |
| `Engine.InitialIsValid` | services/audioEngine.ts:3-18 | the fresh engine satisfies the engine invariant |
| `Engine.Init` | services/audioEngine.ts:21-35 | after bring-up the context exists; an engine whose context already exists is unchanged, and nothing else changes |
| `Engine.InitIdempotent` | services/audioEngine.ts:21-30 | bringing the context up twice is bringing it up once, and it keeps the engine invariant |
| `Engine.SetBpm` | services/audioEngine.ts:37-39 | the tempo becomes the given value and nothing else changes |
| `Engine.GainTarget` | services/audioEngine.ts:60 | the gain target is 0 when muted, the volume otherwise, and within 0..1 for a well-formed track |
| `Engine.UpdateTrackParams` | services/audioEngine.ts:42-63 | before bring-up nothing changes; afterwards the id gains a bus only if it had none (new nodes), an existing bus keeps its nodes, its gain and pan targets come from the track, and every other bus and field is unchanged |
| `Engine.UpdateTrackParamsKeepsValid` | services/audioEngine.ts:43-55 | applying parameters keeps the invariant: buses only after bring-up, and distinct nodes for distinct ids |
| `Engine.UpdateTrackParamsIdempotent` | services/audioEngine.ts:42-63 | applying the same track twice equals applying it once; no second node pair is created |
| `Engine.SyncTracks` | App.tsx:29-33 | applying every track's parameters changes only the buses; before bring-up it changes nothing |
| `Engine.SyncTracksKeepsValid` | App.tsx:29-33 | applying every track's parameters keeps the engine invariant |
| `Engine.SyncTracksKeepsBuses` | services/audioEngine.ts:45-55 | syncing never removes a bus or replaces its nodes |
| `Engine.SyncTracksKeys` | App.tsx:30-32 | after bring-up, syncing adds a bus for exactly the listed ids and removes none |
| `Engine.SyncTracksTargetOf` | App.tsx:30-32 | the bus of the last listed track with a given id carries that track's gain and pan targets |
| `Engine.SyncTracksUntouched` | App.tsx:30-32 | the bus of an id that no listed track carries is unchanged |
| `Transport.StepSeconds` | services/audioEngine.ts:84 | a grid step lasts a quarter of a beat, `15 / bpm` seconds, which is positive |
| `Transport.SixteenStepsMakeABar` | services/audioEngine.ts:84-85 | sixteen grid steps of `(60/bpm)/4` seconds last one bar, and sixteen cursor advances of 0.0625 make one bar |
| `Transport.Render` | services/audioEngine.ts:122-139 | one voice per event: the voice its note triggers on its track's instrument, started at the step's time in the event's track bus, a drum voice iff the instrument is drums |
| `Transport.StepsBelowWindow` | services/audioEngine.ts:82 | while the window is not reached, the steps taken stay below the floor of the window measured in steps (the loop's termination bound) |
| `Transport.SchedulerPass` | services/audioEngine.ts:80-94 | step i is resolved at cursor `start + i/16` and stamped with time `start + i·(60/bpm)/4`, before the 0.1 s window ends; afterwards the next time is at or past `now + 0.1`; it reports the advanced cursor; the timer is pending iff playing; nothing else changes |
| `Transport.Started` | services/audioEngine.ts:67-78 | a fresh start brings the context up, is playing, captures the track list, puts the cursor at the start bar and the first step 0.05 s after now; tempo, buses and timer are untouched |
| `Transport.Play` | services/audioEngine.ts:66-97 | while playing, play changes nothing beyond bring-up; otherwise it runs one pass at once from the started engine, scheduling only steps before now + 0.1 s, whose first step is at the start bar and 0.05 s after now; it leaves the timer pending, keeps tempo and buses, and keeps the engine invariant |
| `Transport.Stop` | services/audioEngine.ts:99-102 | afterwards the engine is not playing and no timer is pending; nothing else changes |
| `Transport.StopIdempotent` | services/audioEngine.ts:99-102 | stopping twice equals stopping once, and stopping keeps the engine invariant |
| `Transport.TimerFires` | services/audioEngine.ts:80-94 | a firing timer runs a pass from where the last one ended and re-arms only while playing; tempo, buses, tracks and playback are untouched |
| `Transport.PlayThenTimer` | services/audioEngine.ts:66-96 | after a fresh start and one timer firing, the steps of both passes lie on one gapless 1/16-bar grid from the start bar, on the captured tracks and the same tempo |
| `Transport.MuteDuringPlayback` | services/audioEngine.ts:42-83 | muting an existing bus's track leaves the captured track list and the resolver's output unchanged, and sets the gain target to 0 |
| `App.InitialProject` | App.tsx:20-26 | the project starts well formed (a positive tempo), not playing, at bar 0 |
| `App.InitialTracks` | App.tsx:13-18 | the initial tracks are the four base tracks tagged drums, bass, synth and synth, otherwise unchanged |
| `App.ShippedTracksAreSilent` | constants.ts:14-60 | the shipped tracks are well formed and, having no notes, resolve to nothing at any bar |
| `App.Merge` | App.tsx:56 | each field present in the update replaces the track's, and every absent field keeps the track's value |
| `App.UpdateTracks` | App.tsx:53-63 | the list keeps its length and order; each track with the id is replaced by its merge with the update, and every other track is unchanged |
| `App.HandleUpdateTrack` | App.tsx:53-63 | each track with the id becomes its merge with the update and every other track is unchanged; once the context exists, buses are added for exactly the merged ids, and with unique ids the merged track's bus carries its gain and pan targets; the bus of every other id is unchanged; in the engine only the buses change, and the invariant is kept |
| `App.UpdateTracksKeepsWellFormed` | App.tsx:53-63 | an update with in-range values that keeps the id keeps the track list well formed |
| `App.UpdateTracksIdempotent` | App.tsx:54-61 | applying the same update twice equals applying it once, for any update |
| `App.MuteFromMixer` | App.tsx:53-63 | with unique ids, muting from the mixer sets the track's flag and, once the context exists, its bus gain target to 0 |
| `App.Updated` | App.tsx:54-58 | the tracks re-applied to the engine are the merges of tracks with the id |
| `App.UpdatedOfUnique` | App.tsx:54-58 | with unique ids exactly one track's parameters are re-applied |
| `App.UpdatedBuses` | App.tsx:54-58 | re-applying the merged tracks adds buses for exactly their ids and leaves the bus of every other id unchanged |
| `App.UpdatedComplete` | App.tsx:54-58 | every track with the id is re-applied, as its merge with the update |
| `App.NoneUpdated` | App.tsx:54-61 | an id no track carries re-applies nothing |
| `App.Find` | App.tsx:70-71 | `find` gives nothing iff no track has the id, otherwise the first track that has it |
| `App.NewClip` | App.tsx:84-92 | the clip is at the given bar, 4 bars long, AI-made, holds the result's notes and has the given id; a non-empty result name is the clip's name, and a missing or empty one gives "AI Idea"; it is amber for drums and blue otherwise |
| `App.AppendClip` | App.tsx:94-99 | the clip is appended at the end of each track with the id; existing clips, the other fields and every other track are unchanged |
| `App.HandleGenerateClip` | App.tsx:69-100 | an id unknown at request time changes nothing; otherwise each current track with the id gains the new clip, coloured by the instrument of the track found at request time, at the end of its clips, and every other track is unchanged |
| `App.GeneratedClipIsAppended` | App.tsx:84-99 | with unique ids, the track gains exactly one clip at the end, at the given bar, 4 bars long, with the generated notes, amber iff the track plays drums |
| `App.HandleCoPilotGeneration` | App.tsx:102-104 | generating from the chat panel is exactly generating at bar 0 for that track, so the clip is appended at bar 0 on the matching tracks and nothing else changes |
| `App.DisplayBar` | App.tsx:46 | a reported bar beyond 32 is displayed as 0; any other bar, 32 included, is displayed as reported |
| `App.DisplayBarRange` | App.tsx:46 | a non-negative report is displayed within 0..32, and displaying it again changes nothing |
| `App.OnTick` | App.tsx:44-47 | a tick changes only the displayed position and keeps the project well formed |
| `App.PlaybackEffect` | App.tsx:41-51 | with the play flag clear, the engine stops; with it set, an engine already playing only has its context brought up, and a stopped engine starts from the displayed position with the current tracks, its first step 0.05 s after now, only steps before now + 0.1 s scheduled, the timer pending, and tempo and buses kept; the engine invariant is preserved |
| `App.FirstPlayIsSilent` | services/audioEngine.ts:42-110 | the first `play` after loading schedules steps but no event and no voice, because no bus exists before the audio context does |
| `App.ReplayAfterTick` | App.tsx:44-46 | pressing play after a tick schedules the first step at bar 0 when the report was past bar 32, and at the reported bar otherwise |

## Left out

- The Web Audio graph is not modelled: context creation and resume, node connections, the 0.8 master gain node, `setTargetAtTime` smoothing with its 20 ms constant, ramp curve shapes and oscillator execution. Voices and buses are descriptor records holding the targets and automation points the code requests.
- Frequencies in hertz are kept symbolic: `Math.pow` and IEEE rounding are not modelled, including the rounding that accumulates in `nextNoteTime` and the cursor. Only octaves of A are evaluated exactly.
- The `setTimeout` timer is a boolean `timerPending`. Its 25 ms interval and its real-time interplay with the audio clock are not modelled. A pass reads the audio clock once, as the `now` parameter, whereas the code reads it again at each loop test.
- `Transport.SchedulerPass`, `Transport.Play`, `Transport.TimerFires`, `Transport.PlayThenTimer`, `Transport.Render`, `Transport.StepSeconds`, `Transport.SixteenStepsMakeABar`, `App.PlaybackEffect`, `App.ReplayAfterTick`, `Voices.Trigger`, `Voices.SynthVoice`, `Voices.NoteSeconds` and `Voices.SecondsPerBar` require a positive tempo. The code divides by the tempo, and the application only ever sets 120. With a negative tempo the scheduler loop (services/audioEngine.ts:82-84) would lower `nextNoteTime` at every step and never leave its window, so it would not terminate; the `decreases` of `Transport.SchedulerPass` holds only because its positive-tempo `requires` rules that case out, and the model does not describe the hang.
- Voices.Trigger: the code's early return when no audio context exists is not modelled. Voices are only rendered inside a scheduler pass, which runs after bring-up.
- Voices.ToLower: lower-cases ASCII letters only. The drum test looks only for `c` and `d`, and only `C` and `D` lower-case to those.
- App.TrackPatch: an update field given explicitly as `undefined` is not distinguished from an absent field.
- Solo is stored on tracks but never read by the engine, so it has no semantics here.
- The generation and chat service calls are not modelled. Their result is a parameter of `App.HandleGenerateClip`. `Date.now()` for the clip id is a parameter too.
- React effects and dependency-array behaviour are not modelled, apart from the track-sync loop body (`Engine.SyncTracks`) and the play/stop effect (`App.PlaybackEffect`). Presentation components are not modelled either.

=== FILE: app.dfy ===
/**
 The host application's pure state updates: the initial track list and
 project state, the mixer's per-track update (which also re-applies the
 updated track's bus parameters), appending a generated clip to a track,
 and the display position reported by the scheduler's tick.
 */
module App {
  import opened Types
  import opened Engine
  import Resolver
  import Transport

  const NeonBlue: string := "#00E5FF"
  const NeonAmber: string := "#FFC107"

  /** Reported positions beyond this bar are displayed as bar 0. */
  const LoopHorizon: real := 32.0

  /** The length of every generated clip, in bars. */
  const GeneratedClipBars: real := 4.0

  const DefaultClipName: string := "AI Idea"

  function InitialProject(): (p: ProjectState)
    ensures ProjectWellFormed(p) && !p.isPlaying && p.currentTime == 0.0
  {
    ProjectState(120.0, "C", "Minor", false, 0.0)
  }

  /** The starting tracks: the first four base tracks tagged drums, bass, synth and synth. */
  function InitialTracks(base: seq<Track>): (ts: seq<Track>)
    requires |base| >= 4
    ensures |ts| == 4
    ensures forall i :: 0 <= i < 4 ==> ts[i].(instrument := base[i].instrument) == base[i]
    ensures ts[0].instrument == Some(Drums) && ts[1].instrument == Some(Bass)
    ensures ts[2].instrument == Some(Synth) && ts[3].instrument == Some(Synth)
  {
    [ base[0].(instrument := Some(Drums)), base[1].(instrument := Some(Bass)),
      base[2].(instrument := Some(Synth)), base[3].(instrument := Some(Synth)) ]
  }

  /** The four base tracks the application ships with; their clips are placeholders without notes. */
  function ShippedTracks(): seq<Track> {
    [ Track("t1", "Drums", AudioTrack, false, false, 0.8, 0.0,
            [ Clip("c1", "Kick Loop", 0.0, 4.0, Human, NeonAmber, None),
              Clip("c2", "Full Kit", 4.0, 4.0, Human, NeonAmber, None) ], None),
      Track("t2", "Bass", MidiTrack, false, false, 0.7, 0.0, [], None),
      Track("t3", "Lead Synth", MidiTrack, false, false, 0.6, 0.2,
            [ Clip("c3", "Arp AI", 4.0, 4.0, Ai, NeonBlue, None) ], None),
      Track("t4", "Vocals", AudioTrack, false, false, 0.9, 0.0, [], None) ]
  }

  /** The shipped tracks are well formed, and, since no clip holds notes, resolve to nothing at any bar. */
  lemma ShippedTracksAreSilent(bar: real, buses: set<string>)
    ensures TracksWellFormed(InitialTracks(ShippedTracks()))
    ensures Resolver.Resolve(bar, InitialTracks(ShippedTracks()), buses) == []
  {
    var ts := InitialTracks(ShippedTracks());
    assert |ts| == 4;
    assert UniqueIds(ts) by {
      assert ts[0].id[1] == '1' && ts[1].id[1] == '2' && ts[2].id[1] == '3' && ts[3].id[1] == '4';
    }
    assert forall i :: 0 <= i < 4 ==> TrackWellFormed(ts[i]);
    assert forall i, k :: 0 <= i < |ts| && 0 <= k < |ts[i].clips| ==> ts[i].clips[k].notes.None?;
    Resolver.NotelessTracksAreSilent(bar, ts, buses);
  }

  /** The fields a mixer update sets; an absent field keeps the track's value. */
  datatype TrackPatch = TrackPatch(
    id: Option<string>,
    name: Option<string>,
    kind: Option<TrackType>,
    muted: Option<bool>,
    soloed: Option<bool>,
    volume: Option<real>,
    pan: Option<real>,
    clips: Option<seq<Clip>>,
    instrument: Option<Instrument>)

  function Pick<T>(update: Option<T>, current: T): T {
    match update
    case Some(v) => v
    case None => current
  }

  /** The merge of a track with an update: each field present in the update wins, every absent one is kept. */
  function Merge(t: Track, p: TrackPatch): (r: Track)
    ensures p.id.Some? ==> r.id == p.id.value
    ensures p.id.None? ==> r.id == t.id
    ensures p.name.Some? ==> r.name == p.name.value
    ensures p.name.None? ==> r.name == t.name
    ensures p.kind.Some? ==> r.kind == p.kind.value
    ensures p.kind.None? ==> r.kind == t.kind
    ensures p.muted.Some? ==> r.muted == p.muted.value
    ensures p.muted.None? ==> r.muted == t.muted
    ensures p.soloed.Some? ==> r.soloed == p.soloed.value
    ensures p.soloed.None? ==> r.soloed == t.soloed
    ensures p.volume.Some? ==> r.volume == p.volume.value
    ensures p.volume.None? ==> r.volume == t.volume
    ensures p.pan.Some? ==> r.pan == p.pan.value
    ensures p.pan.None? ==> r.pan == t.pan
    ensures p.clips.Some? ==> r.clips == p.clips.value
    ensures p.clips.None? ==> r.clips == t.clips
    ensures p.instrument.Some? ==> r.instrument == p.instrument
    ensures p.instrument.None? ==> r.instrument == t.instrument
  {
    Track(Pick(p.id, t.id), Pick(p.name, t.name), Pick(p.kind, t.kind), Pick(p.muted, t.muted),
          Pick(p.soloed, t.soloed), Pick(p.volume, t.volume), Pick(p.pan, t.pan),
          Pick(p.clips, t.clips), if p.instrument.Some? then p.instrument else t.instrument)
  }

  /** A patch that keeps every documented range. */
  predicate PatchWellFormed(p: TrackPatch) {
    && p.id.None?
    && (p.volume.Some? ==> 0.0 <= p.volume.value <= 1.0)
    && (p.pan.Some? ==> -1.0 <= p.pan.value <= 1.0)
    && (p.clips.Some? ==> forall c :: c in p.clips.value ==> ClipWellFormed(c))
  }

  /** The mute toggle the mixer sends. */
  function MutePatch(muted: bool): TrackPatch {
    TrackPatch(None, None, None, Some(muted), None, None, None, None, None)
  }

  /** The track list after an update: every track with the id is merged with the patch, every other is unchanged. */
  function UpdateTracks(ts: seq<Track>, id: string, p: TrackPatch): (r: seq<Track>)
    ensures |r| == |ts|
    ensures forall i :: 0 <= i < |ts| && ts[i].id == id ==> r[i] == Merge(ts[i], p)
    ensures forall i :: 0 <= i < |ts| && ts[i].id != id ==> r[i] == ts[i]
  {
    seq(|ts|, i requires 0 <= i < |ts| => if ts[i].id == id then Merge(ts[i], p) else ts[i])
  }

  /** The merged tracks, in list order: the ones whose bus parameters the update re-applies. */
  function Updated(ts: seq<Track>, id: string, p: TrackPatch): (r: seq<Track>)
    ensures |r| <= |ts|
    ensures forall u :: u in r ==> exists t :: t in ts && t.id == id && u == Merge(t, p)
    decreases |ts|
  {
    if |ts| == 0 then []
    else (if ts[0].id == id then [Merge(ts[0], p)] else []) + Updated(ts[1..], id, p)
  }

  /**
   The mixer's track update: the new track list, and the engine with the
   updated tracks' bus parameters applied. Only the buses change in the
   engine; in particular the track list a running scheduler captured does not.
   */
  function HandleUpdateTrack(ts: seq<Track>, e: EngineState, id: string, p: TrackPatch): (r: (seq<Track>, EngineState))
    ensures |r.0| == |ts|
    ensures forall i :: 0 <= i < |ts| && ts[i].id == id ==> r.0[i] == Merge(ts[i], p)
    ensures forall i :: 0 <= i < |ts| && ts[i].id != id ==> r.0[i] == ts[i]
    ensures r.1.(buses := e.buses, nodesCreated := e.nodesCreated) == e
    ensures !e.ready ==> r.1 == e
    ensures e.ready && UniqueIds(ts) ==>
              forall i :: 0 <= i < |ts| && ts[i].id == id ==>
                var u := Merge(ts[i], p);
                u.id in r.1.buses && r.1.buses[u.id].gain == GainTarget(u) && r.1.buses[u.id].pan == u.pan
    ensures e.ready ==>
              r.1.buses.Keys == e.buses.Keys + (set t | t in ts && t.id == id :: Merge(t, p).id)
    ensures forall k :: k in e.buses && (forall t :: t in ts && t.id == id ==> Merge(t, p).id != k) ==>
              k in r.1.buses && r.1.buses[k] == e.buses[k]
    ensures Valid(e) ==> Valid(r.1)
  {
    SyncTracksKeepsValid(e, Updated(ts, id, p));
    UpdatedBuses(ts, e, id, p);
    assert e.ready && UniqueIds(ts) ==>
             forall i :: 0 <= i < |ts| && ts[i].id == id ==>
               var u := Merge(ts[i], p);
               var e1 := SyncTracks(e, Updated(ts, id, p));
               u.id in e1.buses && e1.buses[u.id].gain == GainTarget(u) && e1.buses[u.id].pan == u.pan
    by {
      if e.ready && UniqueIds(ts) {
        forall i | 0 <= i < |ts| && ts[i].id == id
          ensures var u := Merge(ts[i], p);
                  var e1 := SyncTracks(e, Updated(ts, id, p));
                  u.id in e1.buses && e1.buses[u.id].gain == GainTarget(u) && e1.buses[u.id].pan == u.pan
        {
          UpdatedOfUnique(ts, i, p);
          SyncTracksTargetOf(e, [Merge(ts[i], p)], 0);
        }
      }
    }
    (UpdateTracks(ts, id, p), SyncTracks(e, Updated(ts, id, p)))
  }

  /** An update with a well-formed patch keeps the track list well formed. */
  lemma UpdateTracksKeepsWellFormed(ts: seq<Track>, id: string, p: TrackPatch)
    requires TracksWellFormed(ts) && PatchWellFormed(p)
    ensures TracksWellFormed(UpdateTracks(ts, id, p))
  {
    var r := UpdateTracks(ts, id, p);
    forall t | t in r ensures TrackWellFormed(t) {
      var i :| 0 <= i < |r| && r[i] == t;
      assert ts[i] in ts;
    }
  }

  /** Applying the same update twice is applying it once. */
  lemma UpdateTracksIdempotent(ts: seq<Track>, id: string, p: TrackPatch)
    ensures UpdateTracks(UpdateTracks(ts, id, p), id, p) == UpdateTracks(ts, id, p)
  {
  }

  /** Muting from the mixer sets the track's flag and, once the context exists, silences its bus. */
  lemma MuteFromMixer(ts: seq<Track>, e: EngineState, i: nat)
    requires 0 <= i < |ts| && UniqueIds(ts) && e.ready
    ensures var r := HandleUpdateTrack(ts, e, ts[i].id, MutePatch(true));
            r.0[i].muted && ts[i].id in r.1.buses && r.1.buses[ts[i].id].gain == 0.0
  {
    var id := ts[i].id;
    var u := Updated(ts, id, MutePatch(true));
    UpdatedOfUnique(ts, i, MutePatch(true));
    assert u == [Merge(ts[i], MutePatch(true))];
    assert SyncTracks(e, u) == SyncTracks(UpdateTrackParams(e, u[0]), []);
  }

  /** With unique ids, exactly the one track with the id is re-applied. */
  lemma {:induction false} UpdatedOfUnique(ts: seq<Track>, i: nat, p: TrackPatch)
    requires 0 <= i < |ts| && UniqueIds(ts)
    ensures Updated(ts, ts[i].id, p) == [Merge(ts[i], p)]
    decreases |ts|
  {
    if i == 0 {
      NoneUpdated(ts[1..], ts[0].id, p);
    } else {
      assert UniqueIds(ts[1..]) by {
        forall a, b | 0 <= a < b < |ts[1..]| ensures ts[1..][a].id != ts[1..][b].id {
          assert ts[1..][a] == ts[a + 1] && ts[1..][b] == ts[b + 1];
        }
      }
      assert ts[1..][i - 1] == ts[i];
      UpdatedOfUnique(ts[1..], i - 1, p);
    }
  }

  /** Re-applying the merged tracks adds buses for exactly their ids and leaves every other bus as it was. */
  lemma UpdatedBuses(ts: seq<Track>, e: EngineState, id: string, p: TrackPatch)
    ensures e.ready ==>
              SyncTracks(e, Updated(ts, id, p)).buses.Keys
              == e.buses.Keys + (set t | t in ts && t.id == id :: Merge(t, p).id)
    ensures forall k :: k in e.buses && (forall t :: t in ts && t.id == id ==> Merge(t, p).id != k) ==>
              k in SyncTracks(e, Updated(ts, id, p)).buses && SyncTracks(e, Updated(ts, id, p)).buses[k] == e.buses[k]
  {
    var u := Updated(ts, id, p);
    UpdatedComplete(ts, id, p);
    if e.ready {
      SyncTracksKeys(e, u);
      var listed := set t | t in u :: t.id;
      var merged := set t | t in ts && t.id == id :: Merge(t, p).id;
      forall x | x in listed ensures x in merged {
        var v :| v in u && v.id == x;
        var t :| t in ts && t.id == id && v == Merge(t, p);
      }
      forall x | x in merged ensures x in listed {
        var t :| t in ts && t.id == id && x == Merge(t, p).id;
        assert Merge(t, p) in u;
      }
      assert listed == merged;
    }
    forall k | k in e.buses && (forall t :: t in ts && t.id == id ==> Merge(t, p).id != k)
      ensures k in SyncTracks(e, u).buses && SyncTracks(e, u).buses[k] == e.buses[k]
    {
      forall j | 0 <= j < |u| ensures u[j].id != k {
        assert u[j] in u;
        var t :| t in ts && t.id == id && u[j] == Merge(t, p);
      }
      SyncTracksUntouched(e, u, k);
    }
  }

  /** Every track with the id is re-applied, as its merge with the update. */
  lemma {:induction false} UpdatedComplete(ts: seq<Track>, id: string, p: TrackPatch)
    ensures forall t :: t in ts && t.id == id ==> Merge(t, p) in Updated(ts, id, p)
    decreases |ts|
  {
    if |ts| > 0 {
      UpdatedComplete(ts[1..], id, p);
      forall t | t in ts && t.id == id ensures Merge(t, p) in Updated(ts, id, p) {
        if t != ts[0] {
          assert t in ts[1..];
        }
      }
    }
  }

  lemma {:induction false} NoneUpdated(ts: seq<Track>, id: string, p: TrackPatch)
    requires forall j :: 0 <= j < |ts| ==> ts[j].id != id
    ensures Updated(ts, id, p) == []
    decreases |ts|
  {
    if |ts| > 0 {
      NoneUpdated(ts[1..], id, p);
    }
  }

  /** What the generation service returned; either field may be missing. */
  datatype Generated = Generated(name: Option<string>, notes: Option<seq<Note>>)

  /** `tracks.find`: the first track with the id. */
  function Find(ts: seq<Track>, id: string): (r: Option<Track>)
    ensures r.None? <==> forall i :: 0 <= i < |ts| ==> ts[i].id != id
    ensures r.Some? ==> exists i :: 0 <= i < |ts| && ts[i] == r.value && ts[i].id == id
                                    && forall j :: 0 <= j < i ==> ts[j].id != id
    decreases |ts|
  {
    if |ts| == 0 then None
    else if ts[0].id == id then Some(ts[0])
    else
      var r := Find(ts[1..], id);
      if r.Some? then
        var i :| 0 <= i < |ts[1..]| && ts[1..][i] == r.value && ts[1..][i].id == id
                 && forall j :: 0 <= j < i ==> ts[1..][j].id != id;
        assert forall j :: 0 <= j < i + 1 ==> ts[j].id != id by {
          forall j | 0 <= j < i + 1 ensures ts[j].id != id {
            if j > 0 { assert ts[j] == ts[1..][j - 1]; }
          }
        }
        r
      else
        assert forall i :: 0 <= i < |ts| ==> ts[i].id != id by {
          forall i | 0 <= i < |ts| ensures ts[i].id != id {
            if i > 0 { assert ts[i] == ts[1..][i - 1]; }
          }
        }
        r
  }

  /** The clip built from a generation result: four bars at `startBar`, amber for drums and blue otherwise. */
  function NewClip(clipId: string, g: Generated, startBar: real, inst: Instrument): (c: Clip)
    ensures c.startBar == startBar && c.durationBars == GeneratedClipBars && c.kind == Ai
    ensures c.notes == g.notes
    ensures c.name == DefaultClipName <==> g.name.None? || g.name.value == "" || g.name.value == DefaultClipName
    ensures g.name.Some? && g.name.value != "" ==> c.name == g.name.value
    ensures c.id == clipId
    ensures c.color == (if inst == Drums then NeonAmber else NeonBlue)
  {
    var name := if g.name.None? || g.name.value == "" then DefaultClipName else g.name.value;
    Clip(clipId, name, startBar, GeneratedClipBars, Ai, if inst == Drums then NeonAmber else NeonBlue, g.notes)
  }

  /** Appends a clip to every track with the id; every other track is unchanged. */
  function AppendClip(ts: seq<Track>, id: string, c: Clip): (r: seq<Track>)
    ensures |r| == |ts|
    ensures forall i :: 0 <= i < |ts| && ts[i].id != id ==> r[i] == ts[i]
    ensures forall i :: 0 <= i < |ts| && ts[i].id == id ==>
              r[i].(clips := ts[i].clips) == ts[i] && |r[i].clips| == |ts[i].clips| + 1
              && r[i].clips[..|ts[i].clips|] == ts[i].clips && r[i].clips[|ts[i].clips|] == c
  {
    seq(|ts|, i requires 0 <= i < |ts| => if ts[i].id == id then ts[i].(clips := ts[i].clips + [c]) else ts[i])
  }

  /**
   Generating a clip. `seen` is the track list when the request was made
   and `current` the list when the result arrives. A track id absent from
   `seen` changes nothing; otherwise the new clip, coloured by that track's
   instrument, is appended to the tracks of `current` with the id.
   */
  function HandleGenerateClip(seen: seq<Track>, current: seq<Track>, trackId: string, startBar: real,
                              g: Generated, clipId: string): (r: seq<Track>)
    ensures (forall i :: 0 <= i < |seen| ==> seen[i].id != trackId) ==> r == current
    ensures |r| == |current|
    ensures forall i :: 0 <= i < |current| && current[i].id != trackId ==> r[i] == current[i]
    ensures Find(seen, trackId).Some? ==>
              var c := NewClip(clipId, g, startBar, InstrumentOf(Find(seen, trackId).value));
              forall i :: 0 <= i < |current| && current[i].id == trackId ==>
                r[i] == current[i].(clips := current[i].clips + [c])
  {
    match Find(seen, trackId)
    case None => current
    case Some(t) => AppendClip(current, trackId, NewClip(clipId, g, startBar, InstrumentOf(t)))
  }

  /**
   When the track is unchanged since the request and ids are unique, its clips gain
   exactly the generated clip at the end: at `startBar`, four bars long,
   holding the generated notes, coloured by the track's instrument.
   */
  lemma GeneratedClipIsAppended(ts: seq<Track>, i: nat, startBar: real, g: Generated, clipId: string)
    requires 0 <= i < |ts| && UniqueIds(ts)
    ensures var r := HandleGenerateClip(ts, ts, ts[i].id, startBar, g, clipId);
            var n := |ts[i].clips|;
            |r[i].clips| == n + 1 && r[i].clips[..n] == ts[i].clips
            && r[i].clips[n].startBar == startBar && r[i].clips[n].durationBars == 4.0
            && r[i].clips[n].notes == g.notes
            && (r[i].clips[n].color == NeonAmber <==> InstrumentOf(ts[i]) == Drums)
  {
    var f := Find(ts, ts[i].id);
    var k :| 0 <= k < |ts| && ts[k] == f.value && ts[k].id == ts[i].id && forall j :: 0 <= j < k ==> ts[j].id != ts[i].id;
    assert k == i;
  }

  /** Generation from the chat panel always places the clip at bar 0. */
  function HandleCoPilotGeneration(seen: seq<Track>, current: seq<Track>, trackId: string,
                                   g: Generated, clipId: string): (r: seq<Track>)
    ensures r == HandleGenerateClip(seen, current, trackId, 0.0, g, clipId)
    ensures |r| == |current|
    ensures forall i :: 0 <= i < |current| && current[i].id == trackId && Find(seen, trackId).Some? ==>
              |r[i].clips| == |current[i].clips| + 1 && r[i].clips[|current[i].clips|].startBar == 0.0
  {
    HandleGenerateClip(seen, current, trackId, 0.0, g, clipId)
  }

  /** The position shown for a reported bar: past bar 32 it shows 0; bar 32 itself is kept. */
  function DisplayBar(bar: real): (d: real)
    ensures bar > LoopHorizon ==> d == 0.0
    ensures bar <= LoopHorizon ==> d == bar
  {
    if bar > LoopHorizon then 0.0 else bar
  }

  /** The displayed position of a non-negative report lies in [0, 32], and re-displaying it changes nothing. */
  lemma DisplayBarRange(bar: real)
    requires bar >= 0.0
    ensures 0.0 <= DisplayBar(bar) <= LoopHorizon
    ensures DisplayBar(DisplayBar(bar)) == DisplayBar(bar)
  {
  }

  /** The scheduler's tick: only the displayed position changes. */
  function OnTick(p: ProjectState, bar: real): (r: ProjectState)
    ensures r.(currentTime := p.currentTime) == p
    ensures ProjectWellFormed(p) && bar >= 0.0 ==> ProjectWellFormed(r)
  {
    p.(currentTime := DisplayBar(bar))
  }

  /**
   The transport effect run when the play flag changes: playing starts the
   engine from the displayed position with the current track list;
   otherwise the engine stops.
   */
  method PlaybackEffect(e: EngineState, tracks: seq<Track>, p: ProjectState, now: real)
    returns (r: EngineState, steps: seq<Transport.Step>)
    requires e.bpm > 0.0
    ensures !p.isPlaying ==> r == Transport.Stop(e) && steps == []
    ensures p.isPlaying && !e.isPlaying ==>
              r.isPlaying && r.tracks == tracks && |steps| >= 1 && steps[0].cursor == p.currentTime
              && r.cursor == p.currentTime + (|steps| as real) * Transport.Sixteenth
    ensures p.isPlaying && e.isPlaying ==> r == Init(e) && steps == []
    ensures p.isPlaying && !e.isPlaying ==>
              r.timerPending && steps[0].time == now + Transport.StartDelay
              && (forall i :: 0 <= i < |steps| ==> steps[i].time < now + Transport.ScheduleAheadTime)
              && r.nextNoteTime >= now + Transport.ScheduleAheadTime
    ensures p.isPlaying && !e.isPlaying ==>
              r.(nextNoteTime := e.nextNoteTime, cursor := e.cursor, timerPending := e.timerPending,
                 ready := e.ready, isPlaying := e.isPlaying, tracks := e.tracks) == e
    ensures Valid(e) ==> Valid(r)
  {
    if p.isPlaying {
      r, steps := Transport.Play(e, tracks, p.currentTime, now);
    } else {
      r, steps := Transport.Stop(e), [];
    }
  }

  /**
   Pressing play again after a tick: the first step is scheduled at the
   displayed bar, so after a report past bar 32 playback restarts from
   bar 0, and after any other report from the reported bar itself.
   */
  method ReplayAfterTick(e: EngineState, tracks: seq<Track>, p: ProjectState, bar: real, now: real)
    returns (r: EngineState, steps: seq<Transport.Step>)
    requires e.bpm > 0.0
    ensures !e.isPlaying ==> |steps| >= 1
    ensures !e.isPlaying && bar > LoopHorizon ==> steps[0].cursor == 0.0
    ensures !e.isPlaying && bar <= LoopHorizon ==> steps[0].cursor == bar
    ensures !e.isPlaying ==> r.cursor == steps[0].cursor + (|steps| as real) * Transport.Sixteenth
  {
    var shown := OnTick(p, bar).(isPlaying := true);
    r, steps := PlaybackEffect(e, tracks, shown, now);
  }

  /**
   The first `play` after loading: buses are created only once the audio
   context exists, and the context only comes up inside `play`, so the
   first pass resolves every step against an empty bus map and schedules
   no voice at all, whatever the tracks hold.
   */
  method FirstPlayIsSilent(tracks: seq<Track>, startBar: real, now: real)
    returns (r: EngineState, steps: seq<Transport.Step>)
    ensures r.isPlaying && r.timerPending && |steps| >= 1
    ensures forall i :: 0 <= i < |steps| ==> steps[i].events == [] && steps[i].voices == []
  {
    r, steps := Transport.Play(Initial(), tracks, startBar, now);
    var s := Transport.Started(Initial(), tracks, startBar, now);
    assert s.buses.Keys == {};
    forall i | 0 <= i < |steps|
      ensures steps[i].events == [] && steps[i].voices == []
    {
      assert steps[i] == Transport.StepAt(s, i);
      Resolver.NoBusesResolveNothing(steps[i].cursor, tracks);
    }
  }
}

=== FILE: engine.dfy ===
/**
 The state of the audio engine singleton, with the audio graph reduced to
 plain data: whether the audio context and master bus exist, the tempo,
 the per-track buses, the transport flags and the scheduler's cursor.

 A track's bus (its gain and pan node pair) is created the first time the
 track's parameters are applied after the context exists, and is kept for
 the rest of the session; later updates only retarget its gain and pan.
 Node identity is represented by a creation serial number.
 */
module Engine {
  import opened Types

  /** The gain of the master bus once created. */
  const MasterLevel: real := 0.8

  const DefaultBpm: real := 120.0

  /** A track's persistent bus: the identity of its node pair and the targets its gain and pan glide to. */
  datatype Bus = Bus(node: nat, gain: real, pan: real)

  /**
   `ready`: the audio context and the master bus exist.
   `tracks`: the track list captured by the running scheduler when playback started.
   `cursor`: the bar position of the next grid step to schedule;
   `nextNoteTime`: its audio-clock time in seconds.
   */
  datatype EngineState = EngineState(
    ready: bool,
    bpm: real,
    buses: map<string, Bus>,
    nodesCreated: nat,
    isPlaying: bool,
    timerPending: bool,
    nextNoteTime: real,
    cursor: real,
    tracks: seq<Track>)

  /** The engine before anything has been called on it. */
  function Initial(): (e: EngineState)
    ensures !e.ready && !e.isPlaying && !e.timerPending && e.buses == map[]
  {
    EngineState(false, DefaultBpm, map[], 0, false, false, 0.0, 0.0, [])
  }

  /** Bus node identities are distinct and below the creation counter. */
  predicate NodesDistinct(e: EngineState) {
    && (forall id :: id in e.buses ==> e.buses[id].node < e.nodesCreated)
    && (forall id1, id2 :: id1 in e.buses && id2 in e.buses && id1 != id2 ==> e.buses[id1].node != e.buses[id2].node)
  }

  /**
   The engine's invariant: a pending timer implies playback, playback
   implies a context, buses exist only once the context does, and every
   bus has its own nodes.
   */
  predicate Valid(e: EngineState) {
    && (e.timerPending ==> e.isPlaying)
    && (e.isPlaying ==> e.ready)
    && (!e.ready ==> e.buses == map[])
    && NodesDistinct(e)
  }

  lemma InitialIsValid()
    ensures Valid(Initial())
  {
  }

  /** Bringing up the audio context: only the first call creates it. */
  function Init(e: EngineState): (r: EngineState)
    ensures r.ready
    ensures e.ready ==> r == e
    ensures r.(ready := e.ready) == e
  {
    if e.ready then e else e.(ready := true)
  }

  lemma InitIdempotent(e: EngineState)
    ensures Init(Init(e)) == Init(e)
    ensures Valid(e) ==> Valid(Init(e))
  {
  }

  function SetBpm(e: EngineState, bpm: real): (r: EngineState)
    ensures r.bpm == bpm && r.(bpm := e.bpm) == e
  {
    e.(bpm := bpm)
  }

  /** The level a track's bus glides to: silence when muted, otherwise the track volume. */
  function GainTarget(t: Track): (g: real)
    ensures t.muted ==> g == 0.0
    ensures !t.muted ==> g == t.volume
    ensures TrackWellFormed(t) ==> 0.0 <= g <= 1.0
  {
    if t.muted then 0.0 else t.volume
  }

  /**
   Applying a track's mixer parameters. Before the context exists this
   does nothing. Otherwise the track's bus is created if its id has none,
   and its gain and pan targets are set from the track; the buses of all
   other ids, and the rest of the engine, are unchanged.
   */
  function UpdateTrackParams(e: EngineState, t: Track): (r: EngineState)
    ensures !e.ready ==> r == e
    ensures e.ready ==> r.buses.Keys == e.buses.Keys + {t.id}
    ensures e.ready ==> r.buses[t.id].gain == GainTarget(t) && r.buses[t.id].pan == t.pan
    ensures e.ready && t.id in e.buses ==> r.buses[t.id].node == e.buses[t.id].node && r.nodesCreated == e.nodesCreated
    ensures e.ready && t.id !in e.buses ==> r.buses[t.id].node == e.nodesCreated && r.nodesCreated == e.nodesCreated + 1
    ensures forall id :: id in e.buses && id != t.id ==> id in r.buses && r.buses[id] == e.buses[id]
    ensures r.(buses := e.buses, nodesCreated := e.nodesCreated) == e
  {
    if !e.ready then e
    else if t.id in e.buses then
      e.(buses := e.buses[t.id := Bus(e.buses[t.id].node, GainTarget(t), t.pan)])
    else
      e.(buses := e.buses[t.id := Bus(e.nodesCreated, GainTarget(t), t.pan)], nodesCreated := e.nodesCreated + 1)
  }

  /** Applying parameters keeps every bus on its own nodes. */
  lemma UpdateTrackParamsKeepsValid(e: EngineState, t: Track)
    requires Valid(e)
    ensures Valid(UpdateTrackParams(e, t))
  {
  }

  /** Applying the same parameters twice is the same as applying them once. */
  lemma UpdateTrackParamsIdempotent(e: EngineState, t: Track)
    ensures UpdateTrackParams(UpdateTrackParams(e, t), t) == UpdateTrackParams(e, t)
  {
  }

  /** Applying every track's parameters in list order. */
  function SyncTracks(e: EngineState, ts: seq<Track>): (r: EngineState)
    ensures !e.ready ==> r == e
    ensures r.(buses := e.buses, nodesCreated := e.nodesCreated) == e
    decreases |ts|
  {
    if |ts| == 0 then e
    else SyncTracks(UpdateTrackParams(e, ts[0]), ts[1..])
  }

  /** Syncing keeps the engine's invariant, one track at a time. */
  lemma {:induction false} SyncTracksKeepsValid(e: EngineState, ts: seq<Track>)
    ensures Valid(e) ==> Valid(SyncTracks(e, ts))
    decreases |ts|
  {
    if |ts| > 0 && Valid(e) {
      UpdateTrackParamsKeepsValid(e, ts[0]);
      SyncTracksKeepsValid(UpdateTrackParams(e, ts[0]), ts[1..]);
    }
  }

  /** Syncing never drops a bus nor changes the nodes of one that exists. */
  lemma {:induction false} SyncTracksKeepsBuses(e: EngineState, ts: seq<Track>)
    ensures var r := SyncTracks(e, ts);
            forall id :: id in e.buses ==> id in r.buses && r.buses[id].node == e.buses[id].node
    decreases |ts|
  {
    if |ts| > 0 {
      SyncTracksKeepsBuses(UpdateTrackParams(e, ts[0]), ts[1..]);
    }
  }

  /** Once the context exists, syncing gives a bus to exactly the listed ids, in addition to the existing ones. */
  lemma {:induction false} SyncTracksKeys(e: EngineState, ts: seq<Track>)
    requires e.ready
    ensures SyncTracks(e, ts).buses.Keys == e.buses.Keys + (set t | t in ts :: t.id)
    decreases |ts|
  {
    if |ts| > 0 {
      var e1 := UpdateTrackParams(e, ts[0]);
      assert SyncTracks(e, ts) == SyncTracks(e1, ts[1..]);
      SyncTracksKeys(e1, ts[1..]);
      assert (set t | t in ts :: t.id) == {ts[0].id} + set t | t in ts[1..] :: t.id;
    }
  }

  /** The bus of the last listed track with its id carries that track's targets. */
  lemma {:induction false} SyncTracksTargetOf(e: EngineState, ts: seq<Track>, i: nat)
    requires e.ready && i < |ts|
    requires forall j :: i < j < |ts| ==> ts[j].id != ts[i].id
    ensures ts[i].id in SyncTracks(e, ts).buses
    ensures SyncTracks(e, ts).buses[ts[i].id].gain == GainTarget(ts[i])
    ensures SyncTracks(e, ts).buses[ts[i].id].pan == ts[i].pan
    decreases |ts|
  {
    var e1 := UpdateTrackParams(e, ts[0]);
    var rest := ts[1..];
    assert SyncTracks(e, ts) == SyncTracks(e1, rest);
    assert forall j :: i <= j < |rest| ==> rest[j] == ts[j + 1];
    if i == 0 {
      SyncTracksUntouched(e1, rest, ts[0].id);
    } else {
      assert rest[i - 1] == ts[i];
      SyncTracksTargetOf(e1, rest, i - 1);
    }
  }

  /** The bus of an id that no listed track carries is left as it was. */
  lemma {:induction false} SyncTracksUntouched(e: EngineState, ts: seq<Track>, id: string)
    requires id in e.buses
    requires forall j :: 0 <= j < |ts| ==> ts[j].id != id
    ensures id in SyncTracks(e, ts).buses && SyncTracks(e, ts).buses[id] == e.buses[id]
    decreases |ts|
  {
    if |ts| > 0 {
      SyncTracksUntouched(UpdateTrackParams(e, ts[0]), ts[1..], id);
    }
  }
}

=== FILE: pitch.dfy ===
/**
 The note-name parser of the synthesiser. A name is scanned, without an
 anchor, for the first occurrence of a letter `A`..`G`, an optional `#`
 and one decimal digit; the match becomes a MIDI note number
 `(octave + 1) * 12 + index`, where `index` is the position of the
 letter-and-sharp in the sharps-only chromatic table (-1 when absent, as
 for `E#` and `B#`). A name with no match sounds at the 440 Hz default.

 The equal-tempered frequency `440 * 2^((midi - 69) / 12)` is kept
 symbolic as `Tempered(midi)`; `ExactHz` evaluates it only where it is an
 exact power-of-two multiple of 440, which covers every A.
 */
module Pitch {
  import opened Types

  /** The first match of the pattern: the letter, whether `#` followed, and the octave digit. */
  datatype PitchMatch = PitchMatch(letter: char, sharp: bool, octave: nat)

  /** A frequency: either literal hertz or the equal-tempered pitch of a MIDI note number. */
  datatype Frequency = Hz(hz: real) | Tempered(midi: int)

  const DefaultHz: real := 440.0

  /** The chromatic table the index is looked up in; sharps only. */
  const NoteNames: seq<string> := ["C", "C#", "D", "D#", "E", "F", "F#", "G", "G#", "A", "A#", "B"]

  predicate IsLetter(c: char) { 'A' <= c <= 'G' }

  predicate IsDigit(c: char) { '0' <= c <= '9' }

  function DigitValue(c: char): (d: nat)
    requires IsDigit(c)
    ensures d <= 9
  {
    (c - '0') as nat
  }

  /**
   The pattern tried at position `i`. The optional `#` is greedy: with a
   `#` at `i + 1` the digit is looked for at `i + 2`; giving the `#` up
   would leave `#` where a digit is needed, so that case has no match.
   */
  function MatchAt(s: string, i: nat): (r: Option<PitchMatch>)
    ensures r.Some? ==> i + 1 < |s| && IsLetter(s[i]) && r.value.letter == s[i]
    ensures r.Some? && r.value.sharp ==> i + 2 < |s| && s[i + 1] == '#' && IsDigit(s[i + 2]) && r.value.octave == DigitValue(s[i + 2])
    ensures r.Some? && !r.value.sharp ==> IsDigit(s[i + 1]) && r.value.octave == DigitValue(s[i + 1])
    ensures r.None? ==> !(i + 1 < |s| && IsLetter(s[i]) && IsDigit(s[i + 1]))
    ensures r.None? ==> !(i + 2 < |s| && IsLetter(s[i]) && s[i + 1] == '#' && IsDigit(s[i + 2]))
  {
    if i + 1 < |s| && IsLetter(s[i]) then
      if s[i + 1] == '#' then
        if i + 2 < |s| && IsDigit(s[i + 2]) then Some(PitchMatch(s[i], true, DigitValue(s[i + 2])))
        else None
      else if IsDigit(s[i + 1]) then Some(PitchMatch(s[i], false, DigitValue(s[i + 1])))
      else None
    else None
  }

  /** The leftmost match at or after position `from`. */
  function ScanFrom(s: string, from: nat): (r: Option<PitchMatch>)
    ensures from >= |s| ==> r.None?
    ensures from < |s| && MatchAt(s, from).Some? ==> r == MatchAt(s, from)
    decreases |s| - from
  {
    if from >= |s| then None
    else match MatchAt(s, from)
      case Some(m) => Some(m)
      case None => ScanFrom(s, from + 1)
  }

  /** The first match in the whole name. */
  function Scan(s: string): (r: Option<PitchMatch>)
    ensures |s| < 2 ==> r.None?
    ensures 0 < |s| && MatchAt(s, 0).Some? ==> r == MatchAt(s, 0)
  {
    ScanFrom(s, 0)
  }

  /** The scan finds the leftmost position where the pattern matches, and nothing when it matches nowhere. */
  lemma {:induction false} ScanFromIsLeftmost(s: string, from: nat)
    ensures ScanFrom(s, from).None? <==> forall i :: from <= i < |s| ==> MatchAt(s, i).None?
    ensures ScanFrom(s, from).Some? ==>
              exists i :: from <= i < |s| && MatchAt(s, i) == ScanFrom(s, from)
                          && forall j :: from <= j < i ==> MatchAt(s, j).None?
    decreases |s| - from
  {
    if from < |s| && MatchAt(s, from).None? {
      ScanFromIsLeftmost(s, from + 1);
      if ScanFrom(s, from).Some? {
        var i :| from + 1 <= i < |s| && MatchAt(s, i) == ScanFrom(s, from + 1)
                 && forall j :: from + 1 <= j < i ==> MatchAt(s, j).None?;
        assert forall j :: from <= j < i ==> MatchAt(s, j).None? by {
          forall j | from <= j < i ensures MatchAt(s, j).None? {
            if j > from {
              assert from + 1 <= j < i;
            }
          }
        }
      }
    }
  }

  /** Characterisation of `Scan` over the whole name. */
  lemma ScanIsLeftmost(s: string)
    ensures Scan(s).None? <==> forall i :: 0 <= i < |s| ==> MatchAt(s, i).None?
    ensures Scan(s).Some? ==>
              exists i :: 0 <= i < |s| && MatchAt(s, i) == Scan(s)
                          && forall j :: 0 <= j < i ==> MatchAt(s, j).None?
  {
    ScanFromIsLeftmost(s, 0);
  }

  /** `indexOf` on a sequence: the first position at or after `from` holding `x`, or -1. */
  function IndexFrom(xs: seq<string>, x: string, from: nat): (r: int)
    ensures r == -1 || from <= r < |xs|
    ensures r >= 0 ==> xs[r] == x && forall k :: from <= k < r ==> xs[k] != x
    ensures r == -1 <==> forall k :: from <= k < |xs| ==> xs[k] != x
    decreases |xs| - from
  {
    if from >= |xs| then -1
    else if xs[from] == x then from
    else IndexFrom(xs, x, from + 1)
  }

  function IndexOf(xs: seq<string>, x: string): (r: int)
    ensures -1 <= r < |xs|
    ensures r >= 0 ==> xs[r] == x && forall k :: 0 <= k < r ==> xs[k] != x
    ensures r == -1 <==> x !in xs
  {
    IndexFrom(xs, x, 0)
  }

  /** The text of the first capture group: the letter, followed by `#` when it was matched. */
  function PitchClassName(m: PitchMatch): string {
    if m.sharp then [m.letter, '#'] else [m.letter]
  }

  /** The index into the chromatic table; -1 for `E#` and `B#`. */
  function Semitone(m: PitchMatch): (k: int)
    requires IsLetter(m.letter)
    ensures -1 <= k <= 11
    ensures k == -1 <==> m.sharp && (m.letter == 'E' || m.letter == 'B')
  {
    IndexOf(NoteNames, PitchClassName(m))
  }

  /** The MIDI note number of a match. */
  function MidiOf(m: PitchMatch): (midi: int)
    requires IsLetter(m.letter)
    ensures (m.octave + 1) * 12 - 1 <= midi <= (m.octave + 1) * 12 + 11
  {
    (m.octave + 1) * 12 + Semitone(m)
  }

  /** The oscillator frequency for a note name. */
  function GetFreq(name: string): (f: Frequency)
    ensures Scan(name).None? ==> f == Hz(DefaultHz)
    ensures Scan(name).Some? ==> f.Tempered? && 11 <= f.midi <= 131
  {
    match Scan(name)
    case None => Hz(DefaultHz)
    case Some(m) =>
      ScanMatchIsLetter(name, 0);
      Tempered(MidiOf(m))
  }

  lemma {:induction false} ScanMatchIsLetter(s: string, from: nat)
    ensures ScanFrom(s, from).Some? ==> IsLetter(ScanFrom(s, from).value.letter) && ScanFrom(s, from).value.octave <= 9
    decreases |s| - from
  {
    if from < |s| && MatchAt(s, from).None? {
      ScanMatchIsLetter(s, from + 1);
    }
  }

  /** 2 raised to an integer power, exactly. */
  function Pow2(k: int): (p: real)
    ensures p > 0.0
    decreases if k < 0 then -k else k
  {
    if k == 0 then 1.0
    else if k > 0 then 2.0 * Pow2(k - 1)
    else Pow2(k + 1) / 2.0
  }

  /**
   The exact value in hertz of a frequency, where it is exact: literal
   hertz, and equal-tempered pitches a whole number of octaves from A4.
   */
  function ExactHz(f: Frequency): (r: Option<real>)
    ensures f.Hz? ==> r == Some(f.hz)
    ensures f.Tempered? && f.midi == 69 ==> r == Some(DefaultHz)
    ensures f.Tempered? && (f.midi - 69) % 12 != 0 ==> r.None?
  {
    match f
    case Hz(v) => Some(v)
    case Tempered(m) =>
      if (m - 69) % 12 == 0 then Some(DefaultHz * Pow2((m - 69) / 12)) else None
  }

  /** A name without any pattern match, for instance any lower-case name, sounds at exactly 440 Hz. */
  lemma UnmatchedNameIs440(name: string)
    requires forall i :: 0 <= i < |name| ==> !IsLetter(name[i])
    ensures GetFreq(name) == Hz(DefaultHz)
    ensures ExactHz(GetFreq(name)) == Some(440.0)
  {
    ScanIsLeftmost(name);
  }

  /** The chromatic index written out per letter: sharps add one, except `E#` and `B#`, which are missing. */
  function ChromaticIndex(m: PitchMatch): int {
    var natural :=
      match m.letter
      case 'C' => 0 case 'D' => 2 case 'E' => 4 case 'F' => 5
      case 'G' => 7 case 'A' => 9 case _ => 11;
    if !m.sharp then natural
    else if m.letter == 'E' || m.letter == 'B' then -1
    else natural + 1
  }

  /** The entries of the table are pairwise distinct. */
  lemma NoteNamesDistinct()
    ensures forall i, j :: 0 <= i < |NoteNames| && 0 <= j < |NoteNames| && i != j ==> NoteNames[i] != NoteNames[j]
  {
    forall i, j | 0 <= i < |NoteNames| && 0 <= j < |NoteNames| && i != j
      ensures NoteNames[i] != NoteNames[j]
    {
      assert |NoteNames[i]| != |NoteNames[j]| || NoteNames[i][0] != NoteNames[j][0];
    }
  }

  lemma IndexOfUnique(xs: seq<string>, x: string, k: int)
    requires 0 <= k < |xs| && xs[k] == x
    requires forall j :: 0 <= j < |xs| && j != k ==> xs[j] != x
    ensures IndexOf(xs, x) == k
  {
  }

  /** Looking the capture up in the table gives the chromatic index of the letter and sharp. */
  lemma SemitoneIsChromaticIndex(m: PitchMatch)
    requires IsLetter(m.letter)
    ensures Semitone(m) == ChromaticIndex(m)
  {
    var k := ChromaticIndex(m);
    if k != -1 {
      assert NoteNames[k] == PitchClassName(m);
      NoteNamesDistinct();
      IndexOfUnique(NoteNames, PitchClassName(m), k);
    }
  }

  /** The MIDI number of a matched name, with the table lookup written out. */
  lemma GetFreqOfMatch(name: string, m: PitchMatch)
    requires Scan(name) == Some(m)
    ensures IsLetter(m.letter)
    ensures GetFreq(name) == Tempered((m.octave + 1) * 12 + ChromaticIndex(m))
  {
    ScanMatchIsLetter(name, 0);
    SemitoneIsChromaticIndex(m);
  }

  /** "A4" is MIDI note 69 and so exactly 440 Hz; "A3" is exactly 220 Hz; "C4" is middle C, MIDI 60. */
  lemma ConcertPitch()
    ensures GetFreq("A4") == Tempered(69)
    ensures ExactHz(GetFreq("A4")) == Some(440.0)
    ensures GetFreq("C4") == Tempered(60)
    ensures ExactHz(GetFreq("A3")) == Some(220.0)
  {
    assert MatchAt("A4", 0) == Some(PitchMatch('A', false, 4));
    GetFreqOfMatch("A4", PitchMatch('A', false, 4));
    assert MatchAt("C4", 0) == Some(PitchMatch('C', false, 4));
    GetFreqOfMatch("C4", PitchMatch('C', false, 4));
    assert MatchAt("A3", 0) == Some(PitchMatch('A', false, 3));
    GetFreqOfMatch("A3", PitchMatch('A', false, 3));
    assert Pow2(-1) == 0.5;
  }

  /** "E#4" matches the pattern but is not in the table, so its index is -1: MIDI 59, the B below. */
  lemma SharpOfEIsMinusOne()
    ensures GetFreq("E#4") == Tempered(59)
    ensures GetFreq("B#3") == Tempered(47)
  {
    assert MatchAt("E#4", 0) == Some(PitchMatch('E', true, 4));
    GetFreqOfMatch("E#4", PitchMatch('E', true, 4));
    assert MatchAt("B#3", 0) == Some(PitchMatch('B', true, 3));
    GetFreqOfMatch("B#3", PitchMatch('B', true, 3));
  }

  /** The scan is unanchored and takes the first match: "xxG#2C5" parses as G#2; lower-case "a4" has no match. */
  lemma FirstMatchWins()
    ensures GetFreq("xxG#2C5") == Tempered(44)
    ensures GetFreq("a4") == Hz(DefaultHz)
  {
    var s := "xxG#2C5";
    assert MatchAt(s, 0).None?;
    assert MatchAt(s, 1).None?;
    assert MatchAt(s, 2) == Some(PitchMatch('G', true, 2));
    assert Scan(s) == ScanFrom(s, 2);
    GetFreqOfMatch(s, PitchMatch('G', true, 2));
    UnmatchedNameIs440("a4");
  }
}

=== FILE: resolver.dfy ===
/**
 The note resolver: given the scheduling cursor (a bar position), the
 track list and the ids of the tracks that already have a bus, the events
 that must start sounding at that grid step, in track order, then clip
 order, then note order.

 A track is heard only when it is not muted and has a bus. A clip is
 active on the half-open window `[startBar, startBar + durationBars)`, and
 a clip without notes contributes nothing. A note fires when its start
 lies within 0.01 bar of the cursor's position relative to the clip.
 */
module Resolver {
  import opened Types

  /** The match tolerance, in bars, between a note's start and the cursor. */
  const Epsilon: real := 0.01

  /** One note to trigger: the bus it goes to, the instrument it plays with, and the note. */
  datatype Event = Event(trackId: string, instrument: Instrument, note: Note)

  function Abs(x: real): (a: real)
    ensures a >= 0.0 && (a == x || a == -x)
  {
    if x < 0.0 then -x else x
  }

  predicate ClipActive(c: Clip, bar: real) {
    c.startBar <= bar < c.startBar + c.durationBars
  }

  /** The quantised start test, with `rel` the cursor relative to the clip's start. */
  predicate Fires(n: Note, rel: real) {
    Abs(n.start - rel) < Epsilon
  }

  /** A track is heard when it is not muted and its bus exists. */
  predicate Audible(t: Track, buses: set<string>) {
    !t.muted && t.id in buses
  }

  /** The events of a list of notes at relative position `rel`, in note order. */
  function NoteEvents(rel: real, id: string, inst: Instrument, ns: seq<Note>): (r: seq<Event>)
    ensures |r| <= |ns|
    ensures forall e :: e in r ==> e.trackId == id && e.instrument == inst && e.note in ns && Fires(e.note, rel)
    ensures forall n :: n in ns && Fires(n, rel) ==> Event(id, inst, n) in r
    decreases |ns|
  {
    if |ns| == 0 then []
    else (if Fires(ns[0], rel) then [Event(id, inst, ns[0])] else []) + NoteEvents(rel, id, inst, ns[1..])
  }

  /** The events of one clip at `bar`. */
  function ClipEvents(bar: real, id: string, inst: Instrument, c: Clip): (r: seq<Event>)
    ensures !ClipActive(c, bar) || c.notes.None? ==> r == []
    ensures ClipActive(c, bar) && c.notes.Some? ==> r == NoteEvents(bar - c.startBar, id, inst, c.notes.value)
  {
    if ClipActive(c, bar) then
      match c.notes
      case None => []
      case Some(ns) => NoteEvents(bar - c.startBar, id, inst, ns)
    else []
  }

  /** The events of a track's clips at `bar`, in clip order. */
  function ClipsEvents(bar: real, id: string, inst: Instrument, cs: seq<Clip>): (r: seq<Event>)
    ensures forall e :: e in r ==> e.trackId == id && e.instrument == inst
    decreases |cs|
  {
    if |cs| == 0 then []
    else ClipEvents(bar, id, inst, cs[0]) + ClipsEvents(bar, id, inst, cs[1..])
  }

  /** The events of one track at `bar`; nothing unless the track is audible. */
  function TrackEvents(bar: real, t: Track, buses: set<string>): (r: seq<Event>)
    ensures !Audible(t, buses) ==> r == []
    ensures Audible(t, buses) ==> r == ClipsEvents(bar, t.id, InstrumentOf(t), t.clips)
    ensures forall e :: e in r ==> e.trackId == t.id && e.instrument == InstrumentOf(t)
  {
    if Audible(t, buses) then ClipsEvents(bar, t.id, InstrumentOf(t), t.clips) else []
  }

  /** The resolver: every event due at `bar`, in track order. */
  function Resolve(bar: real, ts: seq<Track>, buses: set<string>): (r: seq<Event>)
    ensures forall e :: e in r ==> exists t :: t in ts && Audible(t, buses) && e.trackId == t.id
    decreases |ts|
  {
    if |ts| == 0 then []
    else TrackEvents(bar, ts[0], buses) + Resolve(bar, ts[1..], buses)
  }

  /** With no bus at all, no track is audible and nothing resolves, whatever the tracks hold. */
  lemma {:induction false} NoBusesResolveNothing(bar: real, ts: seq<Track>)
    ensures Resolve(bar, ts, {}) == []
    decreases |ts|
  {
    if |ts| > 0 {
      NoBusesResolveNothing(bar, ts[1..]);
    }
  }

  /** Note `n` of clip `c` on track `t` sounds at `bar`. */
  predicate Sounds(bar: real, t: Track, c: Clip, n: Note, buses: set<string>) {
    && Audible(t, buses)
    && c in t.clips
    && ClipActive(c, bar)
    && c.notes.Some?
    && n in c.notes.value
    && Fires(n, bar - c.startBar)
  }

  // Order: each level is a concatenation over its list.

  lemma {:induction false} NoteEventsAppend(rel: real, id: string, inst: Instrument, a: seq<Note>, b: seq<Note>)
    ensures NoteEvents(rel, id, inst, a + b) == NoteEvents(rel, id, inst, a) + NoteEvents(rel, id, inst, b)
    decreases |a|
  {
    if |a| > 0 {
      assert (a + b)[1..] == a[1..] + b;
      NoteEventsAppend(rel, id, inst, a[1..], b);
    } else {
      assert a + b == b;
    }
  }

  lemma {:induction false} ClipsEventsAppend(bar: real, id: string, inst: Instrument, a: seq<Clip>, b: seq<Clip>)
    ensures ClipsEvents(bar, id, inst, a + b) == ClipsEvents(bar, id, inst, a) + ClipsEvents(bar, id, inst, b)
    decreases |a|
  {
    if |a| > 0 {
      assert (a + b)[1..] == a[1..] + b;
      ClipsEventsAppend(bar, id, inst, a[1..], b);
    } else {
      assert a + b == b;
    }
  }

  /** The resolver's output over two track lists is the concatenation of their outputs: output follows track order. */
  lemma {:induction false} ResolveAppend(bar: real, a: seq<Track>, b: seq<Track>, buses: set<string>)
    ensures Resolve(bar, a + b, buses) == Resolve(bar, a, buses) + Resolve(bar, b, buses)
    decreases |a|
  {
    if |a| > 0 {
      assert (a + b)[1..] == a[1..] + b;
      ResolveAppend(bar, a[1..], b, buses);
    } else {
      assert a + b == b;
    }
  }

  /** A muted track, or one without a bus, contributes nothing wherever it stands in the list, whatever its notes. */
  lemma InaudibleTrackIsSilent(bar: real, a: seq<Track>, t: Track, b: seq<Track>, buses: set<string>)
    requires t.muted || t.id !in buses
    ensures Resolve(bar, a + [t] + b, buses) == Resolve(bar, a + b, buses)
  {
    ResolveAppend(bar, a + [t], b, buses);
    ResolveAppend(bar, a, [t], buses);
    ResolveAppend(bar, a, b, buses);
    assert [t][1..] == [];
    assert Resolve(bar, [t], buses) == [];
    assert Resolve(bar, a, buses) + [] == Resolve(bar, a, buses);
  }

  // Membership: an event is emitted exactly when some note sounds.

  lemma {:induction false} NoteEventsMembership(rel: real, id: string, inst: Instrument, ns: seq<Note>, e: Event)
    ensures e in NoteEvents(rel, id, inst, ns) <==>
              e.trackId == id && e.instrument == inst && e.note in ns && Fires(e.note, rel)
  {
  }

  lemma {:induction false} ClipsEventsMembership(bar: real, id: string, inst: Instrument, cs: seq<Clip>, e: Event)
    ensures e in ClipsEvents(bar, id, inst, cs) <==>
              e.trackId == id && e.instrument == inst &&
              exists c :: c in cs && ClipActive(c, bar) && c.notes.Some? && e.note in c.notes.value
                          && Fires(e.note, bar - c.startBar)
    decreases |cs|
  {
    if |cs| > 0 {
      ClipsEventsMembership(bar, id, inst, cs[1..], e);
      var c0 := cs[0];
      if c0.notes.Some? {
        NoteEventsMembership(bar - c0.startBar, id, inst, c0.notes.value, e);
      }
      if e.trackId == id && e.instrument == inst &&
         exists c :: c in cs && ClipActive(c, bar) && c.notes.Some? && e.note in c.notes.value
                     && Fires(e.note, bar - c.startBar) {
        var c :| c in cs && ClipActive(c, bar) && c.notes.Some? && e.note in c.notes.value
                 && Fires(e.note, bar - c.startBar);
        if c != c0 {
          assert c in cs[1..];
        }
      }
    }
  }

  lemma TrackEventsMembership(bar: real, t: Track, buses: set<string>, e: Event)
    ensures e in TrackEvents(bar, t, buses) <==>
              (exists c :: Sounds(bar, t, c, e.note, buses))
              && e.trackId == t.id && e.instrument == InstrumentOf(t)
  {
    ClipsEventsMembership(bar, t.id, InstrumentOf(t), t.clips, e);
    if e in TrackEvents(bar, t, buses) {
      var c :| c in t.clips && ClipActive(c, bar) && c.notes.Some? && e.note in c.notes.value
               && Fires(e.note, bar - c.startBar);
      assert Sounds(bar, t, c, e.note, buses);
    }
  }

  lemma {:induction false} ResolveHasTrack(bar: real, ts: seq<Track>, buses: set<string>, e: Event)
    ensures e in Resolve(bar, ts, buses) <==> exists t :: t in ts && e in TrackEvents(bar, t, buses)
    decreases |ts|
  {
    if |ts| > 0 {
      ResolveHasTrack(bar, ts[1..], buses, e);
      if exists t :: t in ts && e in TrackEvents(bar, t, buses) {
        var t :| t in ts && e in TrackEvents(bar, t, buses);
        if t != ts[0] {
          assert t in ts[1..];
        }
      }
    }
  }

  /** An event is resolved at `bar` exactly when an audible track holds an active clip with a note that fires there. */
  lemma ResolveMembership(bar: real, ts: seq<Track>, buses: set<string>, e: Event)
    ensures e in Resolve(bar, ts, buses) <==>
              exists t, c :: t in ts && Sounds(bar, t, c, e.note, buses)
                             && e.trackId == t.id && e.instrument == InstrumentOf(t)
  {
    ResolveHasTrack(bar, ts, buses, e);
    if e in Resolve(bar, ts, buses) {
      var t :| t in ts && e in TrackEvents(bar, t, buses);
      TrackEventsMembership(bar, t, buses, e);
    }
    if exists t, c :: t in ts && Sounds(bar, t, c, e.note, buses)
                      && e.trackId == t.id && e.instrument == InstrumentOf(t) {
      var t, c :| t in ts && Sounds(bar, t, c, e.note, buses)
                  && e.trackId == t.id && e.instrument == InstrumentOf(t);
      TrackEventsMembership(bar, t, buses, e);
    }
  }

  /** Tracks whose clips are all placeholders without notes resolve to nothing at any bar. */
  lemma NotelessTracksAreSilent(bar: real, ts: seq<Track>, buses: set<string>)
    requires forall i, k :: 0 <= i < |ts| && 0 <= k < |ts[i].clips| ==> ts[i].clips[k].notes.None?
    ensures Resolve(bar, ts, buses) == []
  {
    if Resolve(bar, ts, buses) != [] {
      var e := Resolve(bar, ts, buses)[0];
      ResolveMembership(bar, ts, buses, e);
      assert false;
    }
  }

  /** A note of an active clip fires at `bar` exactly when `bar` is within 0.01 of the note's absolute position. */
  lemma NoteFiresNearItsBar(bar: real, id: string, inst: Instrument, c: Clip, n: Note)
    requires c.notes.Some? && n in c.notes.value
    ensures Event(id, inst, n) in ClipEvents(bar, id, inst, c) <==>
              ClipActive(c, bar) && Abs(bar - (c.startBar + n.start)) < Epsilon
  {
    if ClipActive(c, bar) {
      NoteEventsMembership(bar - c.startBar, id, inst, c.notes.value, Event(id, inst, n));
    }
  }

  /**
   On the sixteenth-note grid a note fires at no more than one step: two
   cursors a whole number of sixteenths apart are at least 0.0625 apart,
   more than twice the tolerance.
   */
  lemma FiresAtMostOnceOnGrid(n: Note, rel0: real, i: nat, j: nat)
    requires i != j
    requires Fires(n, rel0 + (i as real) * 0.0625)
    ensures !Fires(n, rel0 + (j as real) * 0.0625)
  {
    if i < j {
      assert (j as real) * 0.0625 - (i as real) * 0.0625 >= 0.0625;
    } else {
      assert (i as real) * 0.0625 - (j as real) * 0.0625 >= 0.0625;
    }
  }

  /** A drum track holding one kick note "C3" at the start of a clip at bar 0. */
  function KickTrack(muted: bool): Track {
    Track("t1", "Drums", AudioTrack, muted, false, 0.8, 0.0,
          [Clip("c1", "Kick", 0.0, 4.0, Human, "#FFC107", Some([Note("C3", 0.0, 0.1, 1.0)]))],
          Some(Drums))
  }

  /** The kick fires at bar 0 and not one sixteenth later; muted, the track fires at no bar at all. */
  lemma KickScenario(bar: real)
    ensures Resolve(0.0, [KickTrack(false)], {"t1"}) == [Event("t1", Drums, Note("C3", 0.0, 0.1, 1.0))]
    ensures Resolve(0.0625, [KickTrack(false)], {"t1"}) == []
    ensures Resolve(bar, [KickTrack(true)], {"t1"}) == []
  {
    var t := KickTrack(false);
    assert Resolve(0.0, [t], {"t1"}) == TrackEvents(0.0, t, {"t1"});
    assert ClipsEvents(0.0, "t1", Drums, t.clips) == ClipEvents(0.0, "t1", Drums, t.clips[0]);
    assert Resolve(0.0625, [t], {"t1"}) == TrackEvents(0.0625, t, {"t1"});
    assert ClipsEvents(0.0625, "t1", Drums, t.clips) == ClipEvents(0.0625, "t1", Drums, t.clips[0]);
  }
}

=== FILE: transport.dfy ===
/**
 The transport: starting and stopping playback, and the look-ahead
 scheduler pass that runs when playback starts and each time the re-armed
 timer fires.

 One pass reads the audio clock once (`now`) and, while the next grid
 step's time is inside the 0.1 s look-ahead window, resolves the notes due
 at the cursor, triggers their voices stamped with that step's time,
 advances the time by a sixteenth note at the current tempo and the cursor
 by exactly 1/16 bar, and reports the advanced cursor to the host. The
 timer is re-armed at the end of a pass only while playback is on. The
 resolver reads the track list captured when playback started, but the
 live bus map.
 */
module Transport {
  import opened Types
  import opened Resolver
  import opened Voices
  import opened Engine

  /** How far ahead of the audio clock the pass schedules, in seconds. */
  const ScheduleAheadTime: real := 0.1

  /** The delay between pressing play and the first grid step, in seconds. */
  const StartDelay: real := 0.05

  /** The cursor advance per grid step, in bars. */
  const Sixteenth: real := 0.0625

  /** The seconds per grid step: a quarter of a beat. */
  function StepSeconds(bpm: real): (s: real)
    requires bpm > 0.0
    ensures s > 0.0
    ensures s * bpm == 15.0
  {
    (60.0 / bpm) / 4.0
  }

  /** Sixteen grid steps last one bar, which is also how long a one-bar melodic note decays. */
  lemma SixteenStepsMakeABar(bpm: real)
    requires bpm > 0.0
    ensures 16.0 * StepSeconds(bpm) == SecondsPerBar(bpm)
    ensures 16.0 * Sixteenth == 1.0
  {
  }

  /**
   One grid step of a pass: the cursor it resolved at, the audio time its
   voices are stamped with, the events and their voices, and the position
   reported to the host afterwards.
   */
  datatype Step = Step(cursor: real, time: real, events: seq<Event>, voices: seq<Voice>, tick: real)

  /** The voices of a step's events, all starting at the step's time. */
  function Render(events: seq<Event>, time: real, bpm: real): (vs: seq<Voice>)
    requires bpm > 0.0
    ensures |vs| == |events|
    ensures forall k :: 0 <= k < |vs| ==> vs[k] == Trigger(events[k].trackId, events[k].instrument, events[k].note, time, bpm)
    ensures forall k :: 0 <= k < |vs| ==> vs[k].start == time && vs[k].bus == events[k].trackId
    ensures forall k :: 0 <= k < |vs| ==> (events[k].instrument == Drums <==> vs[k].tone.Automated?)
  {
    seq(|events|, k requires 0 <= k < |events| => Trigger(events[k].trackId, events[k].instrument, events[k].note, time, bpm))
  }

  /** The `i`-th grid step after the engine's current position, in closed form. */
  function StepAt(e: EngineState, i: nat): Step
    requires e.bpm > 0.0
  {
    var cursor := e.cursor + (i as real) * Sixteenth;
    var time := e.nextNoteTime + (i as real) * StepSeconds(e.bpm);
    var events := Resolve(cursor, e.tracks, e.buses.Keys);
    Step(cursor, time, events, Render(events, time, e.bpm), cursor + Sixteenth)
  }

  /** With `k` steps taken and the window not yet reached, `k` is at most the floor of the window measured in steps. */
  lemma StepsBelowWindow(t0: real, dt: real, k: nat, limit: real)
    requires dt > 0.0
    requires t0 + (k as real) * dt < limit
    ensures k <= ((limit - t0) / dt).Floor
  {
    var q := (limit - t0) / dt;
    assert q * dt == limit - t0;
    assert (k as real) * dt < q * dt;
    assert (k as real) < q;
  }

  /**
   One scheduler pass at audio time `now`. It schedules exactly the grid
   steps whose times fall before `now + 0.1`, each resolved at its
   pre-advance cursor and stamped with its pre-advance time, and leaves
   the next step's time at or beyond the window. Tracks, buses, tempo and
   playback are untouched; the timer is pending afterwards exactly when
   playback is on.
   */
  method SchedulerPass(e: EngineState, now: real) returns (r: EngineState, steps: seq<Step>)
    requires e.bpm > 0.0
    ensures r.nextNoteTime >= now + ScheduleAheadTime
    ensures forall i :: 0 <= i < |steps| ==> steps[i] == StepAt(e, i) && steps[i].time < now + ScheduleAheadTime
    ensures r.nextNoteTime == e.nextNoteTime + (|steps| as real) * StepSeconds(e.bpm)
    ensures r.cursor == e.cursor + (|steps| as real) * Sixteenth
    ensures r.timerPending == e.isPlaying
    ensures r.(nextNoteTime := e.nextNoteTime, cursor := e.cursor, timerPending := e.timerPending) == e
  {
    var dt := StepSeconds(e.bpm);
    var limit := now + ScheduleAheadTime;
    var time := e.nextNoteTime;
    var bar := e.cursor;
    steps := [];
    while time < limit
      invariant time == e.nextNoteTime + (|steps| as real) * dt
      invariant bar == e.cursor + (|steps| as real) * Sixteenth
      invariant forall i :: 0 <= i < |steps| ==> steps[i] == StepAt(e, i) && steps[i].time < limit
      decreases ((limit - e.nextNoteTime) / dt).Floor - |steps|
    {
      StepsBelowWindow(e.nextNoteTime, dt, |steps|, limit);
      var events := Resolve(bar, e.tracks, e.buses.Keys);
      var voices := Render(events, time, e.bpm);
      var step := Step(bar, time, events, voices, bar + Sixteenth);
      assert step == StepAt(e, |steps|);
      time := time + dt;
      bar := bar + Sixteenth;
      steps := steps + [step];
    }
    r := e.(nextNoteTime := time, cursor := bar, timerPending := e.isPlaying);
  }

  /** The engine as a fresh `play` leaves it just before its first pass. */
  function Started(e: EngineState, tracks: seq<Track>, startBar: real, now: real): (r: EngineState)
    ensures r.ready && r.isPlaying && r.tracks == tracks
    ensures r.cursor == startBar && r.nextNoteTime == now + StartDelay
    ensures r.(ready := e.ready, isPlaying := e.isPlaying, nextNoteTime := e.nextNoteTime,
               cursor := e.cursor, tracks := e.tracks) == e
  {
    Init(e).(isPlaying := true, nextNoteTime := now + StartDelay, cursor := startBar, tracks := tracks)
  }

  /**
   Starting playback. The audio context is brought up first; if playback
   is already on nothing else changes. Otherwise the given track list is
   captured, the cursor is set to `startBar`, the first step is placed
   50 ms after `now`, and one pass runs at once, so the first step,
   at `startBar`, is always scheduled, and the timer is left pending.
   */
  method Play(e: EngineState, tracks: seq<Track>, startBar: real, now: real) returns (r: EngineState, steps: seq<Step>)
    requires e.bpm > 0.0
    ensures r.ready
    ensures e.isPlaying ==> r == Init(e) && steps == []
    ensures e.isPlaying && e.ready ==> r == e
    ensures !e.isPlaying ==> r.isPlaying && r.timerPending && r.tracks == tracks
    ensures !e.isPlaying ==> |steps| >= 1 && steps[0].cursor == startBar && steps[0].time == now + StartDelay
    ensures !e.isPlaying ==> forall i :: 0 <= i < |steps| ==> steps[i] == StepAt(Started(e, tracks, startBar, now), i)
    ensures !e.isPlaying ==> forall i :: 0 <= i < |steps| ==> steps[i].time < now + ScheduleAheadTime
    ensures !e.isPlaying ==> r.nextNoteTime >= now + ScheduleAheadTime
    ensures !e.isPlaying ==> r.cursor == startBar + (|steps| as real) * Sixteenth
    ensures !e.isPlaying ==> r.nextNoteTime == now + StartDelay + (|steps| as real) * StepSeconds(e.bpm)
    ensures !e.isPlaying ==>
              r.(nextNoteTime := e.nextNoteTime, cursor := e.cursor, timerPending := e.timerPending,
                 ready := e.ready, isPlaying := e.isPlaying, tracks := e.tracks) == e
    ensures Valid(e) ==> Valid(r)
  {
    var e1 := Init(e);
    if e1.isPlaying {
      return e1, [];
    }
    var s := Started(e, tracks, startBar, now);
    r, steps := SchedulerPass(s, now);
  }

  /** Halting playback: nothing plays and no timer is pending, whatever the state before. */
  function Stop(e: EngineState): (r: EngineState)
    ensures !r.isPlaying && !r.timerPending
    ensures r.(isPlaying := e.isPlaying, timerPending := e.timerPending) == e
  {
    e.(isPlaying := false, timerPending := false)
  }

  /** Stopping twice is stopping once, and stopping keeps the engine's invariant. */
  lemma StopIdempotent(e: EngineState)
    ensures Stop(Stop(e)) == Stop(e)
    ensures Valid(e) ==> Valid(Stop(e))
  {
  }

  /**
   The pending timer fires: the pass runs again from where the last one
   stopped, and re-arms the timer only while playback is on. The fired
   timer is no longer pending, and the pass decides afresh whether one is.
   */
  method TimerFires(e: EngineState, now: real) returns (r: EngineState, steps: seq<Step>)
    requires e.timerPending && e.bpm > 0.0
    ensures r.timerPending == e.isPlaying
    ensures forall i :: 0 <= i < |steps| ==> steps[i] == StepAt(e, i) && steps[i].time < now + ScheduleAheadTime
    ensures r.nextNoteTime >= now + ScheduleAheadTime
    ensures r.cursor == e.cursor + (|steps| as real) * Sixteenth
    ensures r.nextNoteTime == e.nextNoteTime + (|steps| as real) * StepSeconds(e.bpm)
    ensures r.(nextNoteTime := e.nextNoteTime, cursor := e.cursor, timerPending := e.timerPending) == e
    ensures Valid(e) ==> Valid(r)
  {
    r, steps := SchedulerPass(e, now);
  }

  /**
   A fresh start followed by the timer firing: the second pass continues the
   grid exactly where the first stopped, with no step skipped or repeated,
   on the same captured tracks, buses and tempo.
   */
  method PlayThenTimer(e: EngineState, tracks: seq<Track>, startBar: real, now: real, later: real)
    returns (r: EngineState, first: seq<Step>, second: seq<Step>)
    requires e.bpm > 0.0 && !e.isPlaying
    ensures r.isPlaying && r.timerPending && r.tracks == tracks && r.bpm == e.bpm
    ensures forall i :: 0 <= i < |first| + |second| ==>
              (if i < |first| then first[i] else second[i - |first|]).cursor == startBar + (i as real) * Sixteenth
    ensures r.cursor == startBar + ((|first| + |second|) as real) * Sixteenth
  {
    var r1;
    r1, first := Play(e, tracks, startBar, now);
    r, second := TimerFires(r1, later);
    forall i | 0 <= i < |first| + |second|
      ensures (if i < |first| then first[i] else second[i - |first|]).cursor == startBar + (i as real) * Sixteenth
    {
      if i >= |first| {
        var k := i - |first|;
        assert second[k].cursor == r1.cursor + (k as real) * Sixteenth;
      }
    }
  }

  /**
   Muting a track while playback runs silences it only through its bus:
   the captured track list, and so what the resolver emits, is unchanged,
   while the bus gain target drops to zero.
   */
  lemma MuteDuringPlayback(e: EngineState, t: Track, bar: real)
    requires e.ready && t.muted
    ensures UpdateTrackParams(e, t).tracks == e.tracks
    ensures UpdateTrackParams(e, t).buses[t.id].gain == 0.0
    ensures t.id in e.buses ==>
              Resolve(bar, UpdateTrackParams(e, t).tracks, UpdateTrackParams(e, t).buses.Keys) == Resolve(bar, e.tracks, e.buses.Keys)
  {
    if t.id in e.buses {
      assert UpdateTrackParams(e, t).buses.Keys == e.buses.Keys;
    }
  }
}

=== FILE: types.dfy ===
/**
 The data shapes shared by the audio engine and the host application:
 notes, clips, tracks and the project state. Positions and durations are in
 bars, levels are plain reals; the documented ranges are collected in the
 well-formedness predicates at the end of the module.
 */
module Types {

  datatype Option<T> = None | Some(value: T)

  /** The optional `instrument` tag of a track. */
  datatype Instrument = Synth | Bass | Drums

  datatype TrackType = AudioTrack | MidiTrack | HybridTrack

  datatype ClipType = Human | Ai

  /** One note of a clip. `start` is relative to the clip's first bar. */
  datatype Note = Note(name: string, start: real, duration: real, velocity: real)

  /** A clip whose `notes` are absent is a placeholder region. */
  datatype Clip = Clip(
    id: string,
    name: string,
    startBar: real,
    durationBars: real,
    kind: ClipType,
    color: string,
    notes: Option<seq<Note>>)

  datatype Track = Track(
    id: string,
    name: string,
    kind: TrackType,
    muted: bool,
    soloed: bool,
    volume: real,
    pan: real,
    clips: seq<Clip>,
    instrument: Option<Instrument>)

  /** `currentTime` is the displayed playback position, in bars. */
  datatype ProjectState = ProjectState(
    bpm: real,
    keyRoot: string,
    keyScale: string,
    isPlaying: bool,
    currentTime: real)

  /** The instrument a track plays with: an untagged track plays as a synth. */
  function InstrumentOf(t: Track): (i: Instrument)
    ensures t.instrument.Some? ==> i == t.instrument.value
    ensures t.instrument.None? ==> i == Synth
  {
    match t.instrument
    case Some(i) => i
    case None => Synth
  }

  /** The documented value ranges of a note. */
  predicate NoteWellFormed(n: Note) {
    && 0.0 <= n.start
    && 0.0 < n.duration
    && 0.0 <= n.velocity <= 1.0
  }

  /** A clip has a positive length, and every note it holds starts inside it. */
  predicate ClipWellFormed(c: Clip) {
    && 0.0 < c.durationBars
    && (c.notes.Some? ==>
          forall n :: n in c.notes.value ==> NoteWellFormed(n) && n.start < c.durationBars)
  }

  predicate TrackWellFormed(t: Track) {
    && 0.0 <= t.volume <= 1.0
    && -1.0 <= t.pan <= 1.0
    && forall c :: c in t.clips ==> ClipWellFormed(c)
  }

  /** Track ids are unique across the track list. */
  predicate UniqueIds(ts: seq<Track>) {
    forall i, j :: 0 <= i < j < |ts| ==> ts[i].id != ts[j].id
  }

  predicate TracksWellFormed(ts: seq<Track>) {
    && UniqueIds(ts)
    && forall t :: t in ts ==> TrackWellFormed(t)
  }

  predicate ProjectWellFormed(p: ProjectState) {
    && 0.0 < p.bpm
    && 0.0 <= p.currentTime
  }
}

=== FILE: voices.dfy ===
/**
 The synthesiser, as descriptors of the voices it would start. Each
 triggered note becomes one fresh voice: an oscillator waveform, its
 pitch, the amplitude automation applied to its envelope gain, and the
 times the oscillator starts and stops. Automation points carry the kind
 of change the audio graph is asked for (an immediate set, a linear ramp
 or an exponential ramp) and the level reached at that time; the signal
 values between points are not modelled.

 A track playing `Drums` gets one of three fixed percussion voices, chosen
 from the note name alone; every other instrument gets a melodic voice,
 a sawtooth an octave down for `Bass` and a triangle otherwise.
 */
module Voices {
  import opened Types
  import opened Pitch

  datatype Waveform = Sine | Triangle | Sawtooth | Square

  datatype Ramp = SetAt | LinearTo | ExponentialTo

  /** One automation event: the kind of change, its time in seconds and the level reached. */
  datatype Point = Point(ramp: Ramp, time: real, level: real)

  /**
   The oscillator pitch: a fixed frequency lowered by a number of octaves
   (melodic voices), or a list of frequency automation points (drums).
   */
  datatype Tone = Fixed(freq: Frequency, octavesDown: nat) | Automated(points: seq<Point>)

  /** One transient voice; `bus` is the id of the track bus it plays into. */
  datatype Voice = Voice(
    bus: string,
    wave: Waveform,
    tone: Tone,
    envelope: seq<Point>,
    start: real,
    stop: real)

  datatype DrumKind = Kick | Snare | HiHat

  /** The level an envelope decays towards. */
  const DecayTarget: real := 0.001

  /** The linear attack time of a melodic voice, in seconds. */
  const Attack: real := 0.02

  /** How long a melodic voice keeps sounding after its decay target, in seconds. */
  const Release: real := 0.1

  /** Seconds per bar at a tempo: four beats of `60 / bpm` seconds. */
  function SecondsPerBar(bpm: real): (s: real)
    requires bpm > 0.0
    ensures s > 0.0
    ensures s * bpm == 240.0
  {
    4.0 * (60.0 / bpm)
  }

  /** A faster tempo makes a bar shorter. */
  lemma SecondsPerBarDecreasing(slow: real, fast: real)
    requires 0.0 < slow < fast
    ensures SecondsPerBar(fast) < SecondsPerBar(slow)
  {
    var a, b := SecondsPerBar(slow), SecondsPerBar(fast);
    assert a * slow == b * fast;
    assert b * slow < b * fast;
  }

  /** ASCII lower-casing of one character; every other character is unchanged. */
  function LowerChar(c: char): char {
    if 'A' <= c <= 'Z' then (c - 'A' + 'a') as char else c
  }

  function ToLower(s: string): (r: string)
    ensures |r| == |s|
    ensures forall i :: 0 <= i < |s| ==> r[i] == LowerChar(s[i])
  {
    seq(|s|, i requires 0 <= i < |s| => LowerChar(s[i]))
  }

  /** The percussion voice a drum note plays: kick if the lower-cased name contains `c`, else snare if it contains `d`. */
  function DrumKindOf(name: string): (k: DrumKind)
    ensures k == Kick <==> exists i :: 0 <= i < |name| && (name[i] == 'c' || name[i] == 'C')
    ensures k == Snare <==>
              (forall i :: 0 <= i < |name| ==> name[i] != 'c' && name[i] != 'C')
              && exists i :: 0 <= i < |name| && (name[i] == 'd' || name[i] == 'D')
  {
    var lower := ToLower(name);
    if 'c' in lower then
      var i :| 0 <= i < |lower| && lower[i] == 'c';
      assert name[i] == 'c' || name[i] == 'C';
      Kick
    else if 'd' in lower then
      var i :| 0 <= i < |lower| && lower[i] == 'd';
      assert name[i] == 'd' || name[i] == 'D';
      assert forall j :: 0 <= j < |name| ==> name[j] != 'c' && name[j] != 'C' by {
        forall j | 0 <= j < |name| ensures name[j] != 'c' && name[j] != 'C' {
          assert lower[j] != 'c';
        }
      }
      Snare
    else
      assert forall j :: 0 <= j < |name| ==> name[j] != 'c' && name[j] != 'C' && name[j] != 'd' && name[j] != 'D' by {
        forall j | 0 <= j < |name| ensures name[j] != 'c' && name[j] != 'C' && name[j] != 'd' && name[j] != 'D' {
          assert lower[j] != 'c' && lower[j] != 'd';
        }
      }
      HiHat
  }

  /** The fixed percussion voice of a kind, started at `t`. */
  function DrumVoiceOf(bus: string, kind: DrumKind, t: real): Voice {
    match kind
    case Kick =>
      Voice(bus, Sine, Automated([Point(SetAt, t, 150.0), Point(ExponentialTo, t + 0.5, 0.01)]),
            [Point(SetAt, t, 1.0), Point(ExponentialTo, t + 0.5, DecayTarget)], t, t + 0.5)
    case Snare =>
      Voice(bus, Triangle, Automated([Point(SetAt, t, 300.0)]),
            [Point(SetAt, t, 0.5), Point(ExponentialTo, t + 0.2, DecayTarget)], t, t + 0.2)
    case HiHat =>
      Voice(bus, Square, Automated([Point(SetAt, t, 1200.0)]),
            [Point(SetAt, t, 0.2), Point(ExponentialTo, t + 0.05, DecayTarget)], t, t + 0.05)
  }

  /** A drum voice: its kind comes from the note name; velocity and duration play no part. */
  function DrumVoice(bus: string, n: Note, t: real): (v: Voice)
    ensures v.start == t && v.bus == bus && v.tone.Automated?
    ensures |v.envelope| == 2 && v.envelope[0].time == t && v.envelope[1].time == v.stop
    ensures v.envelope[0].ramp == SetAt
    ensures v.envelope[1] == Point(ExponentialTo, v.stop, DecayTarget)
  {
    DrumVoiceOf(bus, DrumKindOf(n.name), t)
  }

  /** The peak amplitude, attack length, decay time and lifetime of the three drum voices. */
  lemma DrumVoiceShapes(bus: string, n: Note, t: real)
    ensures DrumKindOf(n.name) == Kick ==>
              var v := DrumVoice(bus, n, t);
              v.wave == Sine && v.envelope[0] == Point(SetAt, t, 1.0) && v.stop == t + 0.5
              && v.tone == Automated([Point(SetAt, t, 150.0), Point(ExponentialTo, t + 0.5, 0.01)])
    ensures DrumKindOf(n.name) == Snare ==>
              var v := DrumVoice(bus, n, t);
              v.wave == Triangle && v.envelope[0] == Point(SetAt, t, 0.5) && v.stop == t + 0.2
              && v.tone == Automated([Point(SetAt, t, 300.0)])
    ensures DrumKindOf(n.name) == HiHat ==>
              var v := DrumVoice(bus, n, t);
              v.wave == Square && v.envelope[0] == Point(SetAt, t, 0.2) && v.stop == t + 0.05
              && v.tone == Automated([Point(SetAt, t, 1200.0)])
  {
  }

  /** Two drum notes with the same name give the same voice, whatever their velocities and durations. */
  lemma DrumIgnoresVelocityAndDuration(bus: string, n1: Note, n2: Note, t: real)
    requires n1.name == n2.name
    ensures DrumVoice(bus, n1, t) == DrumVoice(bus, n2, t)
  {
  }

  /** The seconds a melodic note's decay lasts: its duration in bars at the tempo. */
  function NoteSeconds(n: Note, bpm: real): (d: real)
    requires bpm > 0.0
    ensures n.duration > 0.0 ==> d > 0.0
    ensures d * bpm == n.duration * 240.0
  {
    n.duration * 4.0 * (60.0 / bpm)
  }

  /**
   A melodic voice: silent at `t`, a linear attack to half the velocity
   over 20 ms, an exponential decay to 0.001 at the end of the note, and
   the oscillator stopped 100 ms after that.
   */
  function SynthVoice(bus: string, inst: Instrument, n: Note, t: real, bpm: real): (v: Voice)
    requires bpm > 0.0
    ensures v.start == t && v.bus == bus && v.tone.Fixed?
    ensures v.tone.freq == GetFreq(n.name)
    ensures inst == Bass ==> v.wave == Sawtooth && v.tone.octavesDown == 1
    ensures inst != Bass ==> v.wave == Triangle && v.tone.octavesDown == 0
    ensures |v.envelope| == 3
    ensures v.envelope[0] == Point(SetAt, t, 0.0)
    ensures v.envelope[1] == Point(LinearTo, t + Attack, n.velocity * 0.5)
    ensures v.envelope[2] == Point(ExponentialTo, t + NoteSeconds(n, bpm), DecayTarget)
    ensures v.stop == t + NoteSeconds(n, bpm) + Release
  {
    var d := NoteSeconds(n, bpm);
    var env := [Point(SetAt, t, 0.0), Point(LinearTo, t + Attack, n.velocity * 0.5), Point(ExponentialTo, t + d, DecayTarget)];
    if inst == Bass then Voice(bus, Sawtooth, Fixed(GetFreq(n.name), 1), env, t, t + d + Release)
    else Voice(bus, Triangle, Fixed(GetFreq(n.name), 0), env, t, t + d + Release)
  }

  /** The envelope's points are in time order exactly when the note lasts at least the 20 ms attack. */
  lemma SynthEnvelopeOrdered(bus: string, inst: Instrument, n: Note, t: real, bpm: real)
    requires bpm > 0.0
    ensures var v := SynthVoice(bus, inst, n, t, bpm);
            (v.envelope[0].time <= v.envelope[1].time <= v.envelope[2].time) <==> NoteSeconds(n, bpm) >= Attack
  {
  }

  /** A melodic note of one bar decays over exactly one bar of seconds; its peak is half its velocity. */
  lemma SynthOneBarNote(bus: string, inst: Instrument, n: Note, t: real, bpm: real)
    requires bpm > 0.0 && n.duration == 1.0
    ensures var v := SynthVoice(bus, inst, n, t, bpm);
            v.envelope[2].time - v.start == SecondsPerBar(bpm)
            && v.envelope[1].level == n.velocity * 0.5
  {
  }

  /** Every automation point of a voice lies between its start and its stop, for a note of non-negative length. */
  predicate WithinLifetime(v: Voice) {
    && v.start <= v.stop
    && (forall k :: 0 <= k < |v.envelope| ==> v.start <= v.envelope[k].time <= v.stop)
    && (v.tone.Automated? ==> forall k :: 0 <= k < |v.tone.points| ==> v.start <= v.tone.points[k].time <= v.stop)
  }

  /** Voice dispatch: drums iff the instrument is `Drums`; any other instrument plays a melodic voice. */
  function Trigger(bus: string, inst: Instrument, n: Note, t: real, bpm: real): (v: Voice)
    requires bpm > 0.0
    ensures v.start == t && v.bus == bus
    ensures inst == Drums <==> v.tone.Automated?
    ensures inst == Drums ==> v == DrumVoice(bus, n, t)
    ensures inst != Drums ==> v == SynthVoice(bus, inst, n, t, bpm)
    ensures |v.envelope| >= 2
    ensures inst != Drums ==> v.envelope[0].level == 0.0
    ensures n.duration >= 0.0 ==> WithinLifetime(v)
  {
    if inst == Drums then DrumVoice(bus, n, t) else SynthVoice(bus, inst, n, t, bpm)
  }

  /** Frequency of a melodic voice in hertz, where exact: an A played by the bass sounds half its pitch. */
  lemma BassA4Is220(bus: string, n: Note, t: real, bpm: real)
    requires bpm > 0.0 && n.name == "A4"
    ensures var v := Trigger(bus, Bass, n, t, bpm);
            v.tone == Fixed(Tempered(69), 1) && ExactHz(v.tone.freq) == Some(440.0)
  {
    ConcertPitch();
  }
}
